=== FILE: README.md ===
# Google Earth Model Simulator — a Dafny model of its core

The Google Earth Model Simulator asks the user for a route (a built-in one
from the database, or a custom From/To pair), a 3D model (built-in, or a
custom `.kmz`/`.dae`/`.zip` URL), a travel method and an ETA. It then plans the
route with the Google Maps directions service and plays the model along it in
the Google Earth plug-in. This project models the parts of that program that
compute or keep state, and proves what they promise:

- **The playback engine** (`ModelAnimation`, from `scripts/modelAnimation.js`).
  - The `ModelSimulator` class holds its clock: elapsed step time, step index, total time and speed.
  - The catch-up `while` loop consumes every whole step the elapsed time covers.
  - The camera cycle is driven by a frame counter and a preset index.
  - The "frameend" listener first waits for the initial view, then animates, and finally tells a natural finish from an interruption.
  - The clock never drifts: the total time always equals the elapsed step time plus the durations of the steps already passed.
  - Catch-up composes, so slicing time into frames does not change where the clock ends.
  - The camera index advances once every `framesPerCamera + 1` calls.
- **Route building** (`RouteCreation`, from `scripts/routeCreation.js`). The triple loop of `drawRouteLine` appends one path entry and one KML coordinate line per coordinate, in leg, step and coordinate order. Both are proved to follow one specification function, and the KML text is proved to be the rendering of the path entries it was built with.
- **Route options** (`Database` and `JourneyRuns`, from `scripts/database.js`).
  - `parseRouteJSONData` groups database rows into maximal runs of equal `JourneyID`, one option per run, in row order.
  - An option's value is `start;end`. When neither part holds `;` or `'`, the route planner splits it back into the same start and end. The menu cuts a value at its first `'` (see Left out).
  - The `dbError` flag shows a failure once until the connection is retried.
- **Menus and form checks** (`Menu`, from `scripts/menu.js`).
  - The option-group list operations are a de-duplicating prepend, a cut to N entries and a move to the top, each a method on an `OptGroup` class, proved against specification functions.
  - The `formErrorStatus` flow belongs to a `MenuForm` class.
  - The URL and route validators are modelled, and so is the ETA label.
- **`String.prototype.capitalize`** (`MainScript`, from `scripts/main.js`).
- **KML model objects** (`ModelCreation`, from `scripts/modelCreation.js`).
- **The PHP pages**:
  - `JourneyLocations`: the journey scan of `_getJourneyFromMapLocations.php`.
  - `InsertCustomRoute`: `insertNewCustomRoute.php`.
  - `ModelLookup`: `_getIDIfModelExists.php`.

  The scan is proved to report exactly the maximal runs of rows with one JourneyID whose first row's location equals the POSTed start and whose last row's location equals the POSTed end. The runs are taken in the order the query returns the rows.

Two modules are shared:

- `Common`: the Option type, number-to-text, split, last index and suffix.
- `JourneyRuns`: the rows, runs of equal `JourneyID`, and the loose `!=` of JavaScript and PHP used by `checkUpdateCurrentJourney`.

`updateCamera` holds each camera preset for `framesPerCamera + 1` calls, not
`framesPerCamera`: with three frames per preset and two presets, seven calls
show the presets 0,0,0,1,1,1,1, and only the eighth returns to the first
(`ModelAnimation.CameraCycleExample`). The name `framesPerCamera` suggests a
period of `framesPerCamera` calls, but the counter is compared with `>`, so it
reaches `framesPerCamera + 1` before the preset changes; the model follows the
comparison.

Time is modelled with exact `real` arithmetic. The Google Earth helpers
(`getHeading`, `interpolateLoc`, `distance`) are uninterpreted function values,
and the decimal rendering of a JavaScript number is a function parameter
`numberText`.

## Model

| member | source | states |
|---|---|---|
| ModelAnimation.FrameTime | scripts/modelAnimation.js:299-303 | one frame advances the clock by 33 ms scaled by speed, in seconds (t·1000 = 33·speed), never negative for a non-negative speed |
| ModelAnimation.MovementSpeedMeetsEta | scripts/modelAnimation.js:152-164 | the speed is 1 for an ETA of 0, and otherwise covers the required travel time in exactly the entered minutes |
| ModelAnimation.StepSpeed | scripts/modelAnimation.js:383-390 | current speed is distance/duration when the duration is positive, else 0 |
| ModelAnimation.CatchUp | scripts/modelAnimation.js:325-347 | the catch-up stops at an index between the start and the last path entry |
| ModelAnimation.CatchUpProperties | scripts/modelAnimation.js:325-361 | the catch-up removes exactly the durations of the steps it passes (no drift), keeps the elapsed time non-negative, passes only steps the time fully covered, and leaves less than the current step's duration unless it reached the last entry |
| ModelAnimation.CatchUpCompose | scripts/modelAnimation.js:325-347 | catching up two portions of time in turn ends where catching up their sum ends |
| ModelAnimation.ClockAfter | scripts/modelAnimation.js:295-310 | the clock after any number of frames stays within the path |
| ModelAnimation.ClockAfterIsOneCatchUp | scripts/modelAnimation.js:295-347 | after n ≥ 1 frames at a fixed speed the clock is one catch-up over n frames' simulated time from the start |
| ModelAnimation.ElapsedBeforeMonotone | scripts/modelAnimation.js:339-343 | with non-negative durations a longer prefix of steps lasts at least as long |
| ModelAnimation.ElapsedBeforeAppend | scripts/routeCreation.js:310-318 | appending path entries leaves the duration of every existing prefix unchanged |
| ModelAnimation.RouteFinishedIffTimeCovered | scripts/modelAnimation.js:353-361 | from the start, catch-up reaches the last path entry exactly when the simulated time covers every step but the last |
| ModelAnimation.FractionBelowOne | scripts/modelAnimation.js:401 | elapsed time below a positive duration is a fraction in [0, 1) of it |
| ModelAnimation.CameraCycle | scripts/modelAnimation.js:468-488 | after c calls of updateCamera the frame counter is c mod (framesPerCamera+1) and the preset index is ⌊c/(framesPerCamera+1)⌋ mod the number of presets |
| ModelAnimation.CameraCycleExample | scripts/modelAnimation.js:468-477 | with three frames per preset and two presets, calls 1–3 show preset 0, calls 4–7 preset 1, call 8 preset 0 again |
| ModelAnimation.ModelSimulator.constructor | scripts/modelAnimation.js:62-91 | a new simulator is at rest: speed 1, empty path, zeroed clock and camera cycle, the initial camera presets, no listener, and its invariant holds |
| ModelAnimation.ModelSimulator.AddNewCamera | scripts/modelAnimation.js:440-446 | appends one camera preset with the given heading, tilt and range |
| ModelAnimation.ModelSimulator.PopulateInitialCameras | scripts/modelAnimation.js:451-462 | appends the built-in presets in order |
| ModelAnimation.ModelSimulator.GetInitialModelHeading | scripts/modelAnimation.js:140-147 | the heading from the first to the second path coordinate, or 0 with fewer than two |
| ModelAnimation.ModelSimulator.MoreCoordinatesToMoveAlong | scripts/modelAnimation.js:353-361 | on a non-empty path, no coordinates remain exactly at the last entry |
| ModelAnimation.ModelSimulator.WentOverStepDuration | scripts/modelAnimation.js:368-376 | with more coordinates, the catch-up loop's guard holds exactly when the catch-up still has a step to pass |
| ModelAnimation.ModelSimulator.SetMovementSpeed | scripts/modelAnimation.js:152-164 | sets speed to 1 for ETA 0, otherwise to the value that covers the required travel time in the entered minutes; keeps the invariant |
| ModelAnimation.ModelSimulator.AdjustTimingIfNextStepEntered | scripts/modelAnimation.js:325-347 | the loop's new clock is the catch-up of the old one; the index never passes the last entry; it returns the current step's duration, and while coordinates remain the elapsed time lies in [0, that duration) |
| ModelAnimation.ModelSimulator.UpdateCurrentSpeed | scripts/modelAnimation.js:383-390 | current speed becomes distance/duration for a positive duration, else 0 |
| ModelAnimation.ModelSimulator.GetIntermediateCoordinate | scripts/modelAnimation.js:397-406 | the fraction travelled is in [0, 1) and times the duration gives the elapsed step time; the point is the interpolation at that fraction between the step's coordinate and the next |
| ModelAnimation.ModelSimulator.CalcNextAnimationFrame | scripts/modelAnimation.js:295-318 | both clocks advance by one frame time; the new step index and elapsed time are the catch-up of the old; speed uses the old step's distance and the new step's duration; the model is placed and turned only when a next coordinate exists, otherwise the frame reports "no next node" |
| ModelAnimation.ModelSimulator.SetCameraIndex | scripts/modelAnimation.js:482-488 | moves to the next preset, wrapping from the last to the first |
| ModelAnimation.ModelSimulator.UpdateCamera | scripts/modelAnimation.js:468-477 | one camera step: the counter increments, or resets and the preset advances once it exceeds framesPerCamera; the counter and index stay in bounds |
| ModelAnimation.ModelSimulator.CompletedTasksRun | scripts/modelAnimation.js:411-417 | the end-of-simulation tasks run exactly when the path is empty or the clock is at its last entry |
| ModelAnimation.ModelSimulator.ModelMovementDriver | scripts/modelAnimation.js:97-134 | with a non-empty path it captures the first coordinate and heading, sets the speed and attaches the initial-view listener with a zero frame count; an empty path changes nothing; the clock, the current speed and the cameras are unchanged |
| ModelAnimation.ModelSimulator.AnimationCallback | scripts/modelAnimation.js:276-287 | while doAnimation holds and coordinates remain: one camera step, one clock step and the model moved as CalcNextAnimationFrame places it; otherwise the listener detaches, clock, camera and speed unchanged, reporting completion exactly when no coordinates remain |
| ModelAnimation.ModelSimulator.FrameEnd | scripts/modelAnimation.js:272-289 | no listener: nothing changes; waiting: counts a frame and starts animating once at the start position or past 150 frames, leaving clock and camera alone; animating: a frame steps the camera and the clock and moves the model as CalcNextAnimationFrame does only while doAnimation holds and coordinates remain, otherwise the listener detaches with clock, camera and speed unchanged and reports completion exactly when no coordinates remain |
| RouteCreation.TokenizeRouteValue | scripts/routeCreation.js:61-77 | From is the text before the first semicolon; a To exists exactly when there is a semicolon, and it is the text between the first semicolon and the next one (or the end) |
| RouteCreation.TokenizeRoundTrip | scripts/routeCreation.js:61-77 | splitting `start;end` gives back start and end when neither holds a semicolon |
| RouteCreation.GetEnteredRouteValues | scripts/routeCreation.js:40-53 | a custom route uses the raw From/To fields; otherwise From is the selected value up to its first semicolon and To, present exactly when there is a semicolon, is the next field |
| RouteCreation.DetermineTransitType | scripts/routeCreation.js:84-99 | "driving" and "transit" select their travel modes, anything else none |
| RouteCreation.CreateDirectionsRequest | scripts/routeCreation.js:111-120 | the request carries the entered origin, destination and travel mode |
| RouteCreation.RouteCreationRequest | scripts/routeCreation.js:10-32 | a custom route's request goes from the custom From to the custom To; a selected route's goes from the first field of its value to the second, if any; a travel mode is set exactly for "driving" or "transit" |
| RouteCreation.SelectedRouteRequest | scripts/routeCreation.js:10-32 | a selected value `start;end` asks for directions from start to end |
| RouteCreation.CalculatePathDetailsDistance | scripts/routeCreation.js:263-282 | the last coordinate of a step has distance 0, any other the distance to the next coordinate of the same step |
| RouteCreation.CalculatePathDetailsDuration | scripts/routeCreation.js:293-298 | duration × step distance = step duration × coordinate distance; a zero-distance coordinate gets zero duration |
| RouteCreation.CoordinateDetail | scripts/routeCreation.js:246-255 | the entry of coordinate k of step j records that coordinate and j, with a duration in proportion to its distance, and zero for the step's last coordinate |
| RouteCreation.StepDetails | scripts/routeCreation.js:180-191 | one path entry per coordinate of the step |
| RouteCreation.StepDurationsProportional | scripts/routeCreation.js:293-298 | a step's entry durations add up in proportion to its entry distances, as the step's duration is to its distance |
| RouteCreation.LegDetailsLength | scripts/routeCreation.js:177-192 | a leg contributes one entry per coordinate of its steps |
| RouteCreation.RouteDetailsLength | scripts/routeCreation.js:172-193 | the route contributes one entry per coordinate of every step of every leg |
| RouteCreation.StepKmlMatchesDetails | scripts/routeCreation.js:180-191 | the KML lines of a step are the rendering of the path entries built from it, one `lng,lat,10` line per entry |
| RouteCreation.AppendToKmlLineString | scripts/routeCreation.js:206-211 | one `lng,lat,10` line; that these lines render the path entries is stated by StepKmlMatchesDetails |
| RouteCreation.LegKmlMatchesDetails | scripts/routeCreation.js:177-192 | the same for a leg |
| RouteCreation.RouteKmlMatchesDetails | scripts/routeCreation.js:172-193 | the same for the whole route |
| RouteCreation.AddToPathDetails | scripts/routeCreation.js:310-318 | appends exactly one path entry with the given coordinate, step index, distance and duration |
| RouteCreation.DetermineAdditionalPathDetails | scripts/routeCreation.js:246-255 | appends exactly the entry of coordinate k of step j |
| RouteCreation.DrawStepLine | scripts/routeCreation.js:180-191 | appends the step's entries to the path and returns its KML lines |
| RouteCreation.DrawLegLine | scripts/routeCreation.js:177-192 | appends the entries of every step of the leg in order and returns their KML lines |
| RouteCreation.DrawRouteLine | scripts/routeCreation.js:165-198 | appends the entries of every coordinate of every step of every leg in order, adds the sum of the legs' durations to the required travel time, and returns the header, the coordinate lines and the footer |
| RouteCreation.GetDirections | scripts/routeCreation.js:133-156 | a successful reply draws the route: the path entries of every coordinate, the legs' durations added to the required travel time, and the KML line string of those entries; a failed one shows the error and changes neither |
| JourneyRuns.CheckUpdateCurrentJourney | scripts/database.js:108-115 | the result is the new JourneyID whether or not the current journey (a record or an id) differs loosely from it |
| JourneyRuns.RunsOf | scripts/database.js:138-160 | the runs of the first n rows are empty exactly for n = 0 and the last ends at row n − 1 |
| JourneyRuns.RunsOfMaximal | scripts/database.js:138-160 | the runs tile the rows, each run has one JourneyID, and neighbouring runs differ |
| JourneyRuns.JourneyStart | scripts/database.js:138-160 | the start row of the journey containing row k is at or before k |
| JourneyRuns.EndedRunsAreRuns | scripts/database.js:57-77 | the journeys the walk closes are exactly the maximal runs of equal JourneyID |
| JourneyRuns.EndedRunsMaximal | scripts/database.js:57-77 | the closed journeys are maximal runs within the rows |
| Database.UseNameOrCoordinates | scripts/database.js:197-208 | the location's name, or its coordinates when the name is null or undefined |
| Database.SetRouteOptGroupValAndText | scripts/database.js:184-189 | the option goes to the given group with the text `start to end` |
| Database.FinalizeRouteMenuOptionData | scripts/database.js:168-176 | the option closing a journey goes to the group of its Type with the text `start to end`, the end being the last row's location; RouteOptionsFollowJourneys places one such option per journey |
| Database.RouteValueRoundTrip | scripts/database.js:184-189 | the route planner reads back from an option's value exactly its start and end when neither holds a semicolon (in the menu, also no `'`) |
| Database.SelectedRouteOptionRequest | scripts/database.js:184-189 | choosing a route option asks for directions from the option's start to its end |
| Database.ParseRouteJSONData | scripts/database.js:57-77 | the options handed to the menu are the route options of the rows up to the first whose group is undefined; it throws exactly when that cuts the list short |
| Database.GetStartEndLocation | scripts/database.js:138-160 | one row of the walk returns the start of the journey containing the row, emits the previous journey's option when the JourneyID changes and the last journey's at the last row, and on an undefined group throws with the options delivered so far |
| Database.CloseJourneyOnChange | scripts/database.js:141-152 | on a change of JourneyID the previous journey's option is emitted and the new start is this row's location |
| Database.RouteOptionsFollowJourneys | scripts/database.js:57-77 | there is one option per maximal run of equal JourneyID, in row order, each with its start from the run's first row and its end and group from the run's last row |
| Database.EmittedFollowsEndedRuns | scripts/database.js:168-176 | the options emitted over any prefix are those of the journeys closed there, one each, in order |
| Database.GetModelName | scripts/database.js:358-372 | the part of the URL after its last `/`, or the whole URL without one; it holds no `/` |
| Database.GetTravelMethodID | scripts/database.js:379-389 | "driving" gives 1, "transit" 2, anything else null |
| Database.TravelMethodIdMatchesMode | scripts/database.js:379-389 | a method has a database id exactly when the route planner knows its travel mode, and id 1 is driving |
| Database.DbStep | scripts/database.js:43-50 | the error is shown only when it was not already flagged, and showing it flags it |
| Database.ErrorShownOnceWithoutRetry | scripts/database.js:7-51 | without a retry the error is shown at most once, and never when already flagged |
| Database.FailureAfterRetryShown | scripts/database.js:12-18 | a failure at the start or right after a retry is always shown |
| Database.DbStatus.GetDBJSONData | scripts/database.js:38-51 | a failed request sets the flag and shows the error only if it was clear; a success changes nothing |
| Database.DbStatus.RetryConnection | scripts/database.js:12-18 | clears the flag |
| Database.AddNewCustomRoute | scripts/database.js:243-266 | a custom route adds its capitalised From/To option to the recent group, reports the insert, cuts the group to five and returns the From/To of every removed option in order; otherwise nothing changes |
| Database.CustomRouteRoundTrip | scripts/database.js:243-266 | a custom route accepted by the form is read back from its option value as the inserted start and end (in the menu, only when neither holds `'`) |
| Database.AddNewCustomModel | scripts/database.js:301-328 | a custom URL is added under its file name, inserted, and the group cut to five, returning the removed URLs; otherwise the route goes ahead with model id "null" |
| Menu.Values | scripts/menu.js:458-472 | the values of the options, in order |
| Menu.KeptCount | scripts/menu.js:458-472 | the number of options kept is the count capped at the maximum, none for a non-positive maximum |
| Menu.AddedOptionsContents | scripts/menu.js:437-450 | after adding, the value is present; the list is unchanged exactly when the value was already there, and otherwise gains the option in front |
| Menu.AddedOptionsIdempotent | scripts/menu.js:437-450 | adding the same option twice is adding it once |
| Menu.AddedOptionsDistinct | scripts/menu.js:437-450 | adding keeps the values distinct |
| Menu.AddThenCutKeepsNewest | scripts/database.js:259-264 | adding to a group within its limit and then cutting it keeps the new option |
| Menu.MovedToTopPermutes | scripts/menu.js:490-508 | moving to the top is a permutation with the selected option first |
| Menu.MovedToTopKeepsOthersInOrder | scripts/menu.js:490-508 | the other options keep their relative order |
| Menu.MovedToTopIdempotent | scripts/menu.js:490-508 | moving the first option changes nothing, so moving twice is moving once |
| Menu.OptGroup.AddToOptGroup | scripts/menu.js:437-450 | the options become the de-duplicating prepend of the new one |
| Menu.OptGroup.RemoveOldCustomOptEntries | scripts/menu.js:458-472 | keeps the first maxCustomItems options in order and returns the removed values in order |
| Menu.OptGroup.MoveSelectedMenuItemToTop | scripts/menu.js:490-508 | a selected custom option moves to the top, the rest in order; without one nothing changes |
| Menu.DetermineMenuItemOptGroup | scripts/menu.js:416-425 | "Builtin" and "Custom" name the built-in and recent-custom groups of the menu section; any other type has none |
| Menu.OptGroupsDiffer | scripts/menu.js:416-425 | the two groups of a section are different elements |
| Menu.EtaLabel | scripts/menu.js:105-113 | the label is "Real Time" exactly for 0, "1 min" for 1, and the decimal number followed by " mins" for more |
| Menu.EtaLabelInjective | scripts/menu.js:105-113 | different minutes show different labels |
| Menu.CheckStringEndText | scripts/menu.js:404-408 | a match means the string ends with the letters after the pattern's dot |
| Menu.CheckStringEndTextDot | scripts/menu.js:404-408 | the pattern matches a literal dot and also any other non-line-terminator character before the extension |
| Menu.InvalidURLFileExtension | scripts/menu.js:388-397 | a URL not ending in kmz, dae or zip is invalid |
| Menu.HasUrlScheme | scripts/menu.js:368 | the URL starts with `http://`, `https://` or `ftp://`; its use is stated by MenuForm.CheckCustomModelURL |
| Menu.DotMatchesAnyCharacter | scripts/menu.js:388-408 | a URL ending "Xkmz", with no dot, is accepted as a KMZ |
| Menu.AcceptedCustomRoute | scripts/menu.js:299-348 | a custom route that passes the form has non-empty From/To fields without semicolons |
| Menu.MenuForm.constructor | scripts/menu.js:8 | the error status starts clear |
| Menu.MenuForm.CheckValueIsSelect | scripts/menu.js:216-228 | flags an error exactly for the "select" placeholder |
| Menu.MenuForm.CheckCustomRouteFieldsEmpty | scripts/menu.js:315-327 | flags an error exactly when a field is empty |
| Menu.MenuForm.CheckCustomRouteValidChars | scripts/menu.js:334-348 | flags an error exactly when a field holds a semicolon |
| Menu.MenuForm.CheckCustomRoute | scripts/menu.js:299-307 | the semicolon check runs only when both fields are filled; the route is in error when a field is empty or holds a semicolon |
| Menu.MenuForm.CheckCustomModelURL | scripts/menu.js:364-379 | flags an error exactly when the URL lacks an http, https or ftp scheme or has an invalid extension |
| Menu.MenuForm.CheckSelectedValue | scripts/menu.js:203-208 | flags the selection error of the field, including its custom checks |
| Menu.MenuForm.SubmitForm | scripts/menu.js:160-179 | the status is reset and set by the checks, and the simulation starts exactly when no check failed |
| Menu.ResetSimulation | scripts/menu.js:533-545 | stops the running animation, keeping the simulator's invariant and every other field |
| Menu.InterruptAnimation | scripts/menu.js:533-545 | a reset while the animation runs with coordinates left makes the next frame detach the listener and report an interrupted run, with the clock unchanged |
| MainScript.ToUpper | scripts/main.js:172 | upper-cases ASCII lower-case letters and keeps everything else |
| MainScript.ReplaceFrom | scripts/main.js:170-173 | the replacement keeps the length of the text (under the ASCII upper-casing) |
| MainScript.Capitalize | scripts/main.js:169-175 | capitalising keeps the length (under the ASCII upper-casing) |
| MainScript.ReplaceFromAt | scripts/main.js:170-173 | the global replace of `(?:^|\s)\S` upper-cases exactly the characters that start a word |
| MainScript.CapitalizeAt | scripts/main.js:169-175 | character i is upper-cased iff it is not whitespace and is first or follows whitespace, and is unchanged otherwise |
| MainScript.CapitalizeKeepsWhitespace | scripts/main.js:170 | whitespace is kept in place and unchanged |
| MainScript.CapitalizeIdempotent | scripts/main.js:169-175 | capitalising twice is capitalising once |
| MainScript.CapitalizeNoLower | scripts/main.js:169-175 | a text without lower-case letters is unchanged |
| MainScript.CapitalizeKeepsSemicolonFree | scripts/main.js:169-175 | capitalising introduces no semicolon |
| ModelCreation.FirstModelChildSpec | scripts/modelCreation.js:125-146 | the first model child's position is −1 iff no child is a model, and otherwise the least index of a model child |
| ModelCreation.GetKmlModelChild | scripts/modelCreation.js:125-146 | the loop throws exactly when a placemark with a null geometry comes before every model child; otherwise it returns −1 iff no child is a model, else the first model child's index |
| ModelCreation.DoesKmlObjectHaveValues | scripts/modelCreation.js:93-101 | true iff the object exists and has children |
| ModelCreation.IsKmlObjectAModel | scripts/modelCreation.js:108-118 | throws as the scan does; otherwise true iff some child is a model |
| ModelCreation.ValidKmlObject | scripts/modelCreation.js:72-86 | throws exactly when the object has children and the scan throws; otherwise true iff the object has children and one of them is a model |
| ModelCreation.CreateModelKmlObjectParser | scripts/modelCreation.js:55-65 | when the validity test throws, no error is shown and nothing is placed; otherwise an invalid object shows an error and a valid one places its first model child |
| ModelCreation.GetModelURL | scripts/modelCreation.js:22-32 | the custom URL field when "custom" is selected, else the selected value |
| ModelCreation.CreateModel | scripts/modelCreation.js:7-15 | fetches as KMZ for a `.kmz`/`.zip` match and as Collada for a `.dae` match |
| ModelCreation.CreateModelFetchesAtMostOnce | scripts/modelCreation.js:7-15 | at most one fetch, and none exactly for a URL the form rejects as an invalid extension |
| ModelCreation.FailedColladaCheckIsMissing | scripts/modelCreation.js:166-176 | the file exists for the reply "true"; any other reply, including "null" from a failed request, means it is missing |
| ModelCreation.ColladaFileExists | scripts/modelCreation.js:168 | only the reply "true" means the file exists, as stated by FailedColladaCheckIsMissing |
| JourneyLocations.UseNameOrCoordinates | php/require/_getJourneyFromMapLocations.php:37-47 | the name, or the coordinates when the name is null or "" (PHP's loose `== null`) |
| JourneyLocations.CheckJourneyAgainstPOST | php/require/_getJourneyFromMapLocations.php:49-57 | true iff the start equals the POST start and the end equals the POST end |
| JourneyLocations.CheckAddNewMapLocation | php/require/_getJourneyFromMapLocations.php:25-34 | the callback fires at most once, with the row, and exactly when the journey matches the POST |
| JourneyLocations.GetStartEndLocationKeepsState | php/require/_getJourneyFromMapLocations.php:3-22 | one call keeps the start of the journey containing the current row, with the previous row and journey id threaded on |
| JourneyLocations.GetStartEndLocation | php/require/_getJourneyFromMapLocations.php:3-22 | the start is kept unless a new journey opens; at most two rows are reported: the previous row, when a journey closes before this one, and this row at the last index; see GetStartEndLocationKeepsState and GetStartEndLocationReports |
| JourneyLocations.GetStartEndLocationReports | php/require/_getJourneyFromMapLocations.php:3-22 | one call reports the journey closing before the row and, at the last row, the journey ending there |
| JourneyLocations.StepReportsExtend | php/require/_getJourneyFromMapLocations.php:3-22 | the reports of the steps so far extend by one step's reports |
| JourneyLocations.MatchedOfNonEmpty | php/require/_getJourneyFromMapLocations.php:25-34 | some report is made iff some journey matches |
| JourneyLocations.MatchedIffSomeJourneyMatches | php/require/_getJourneyFromMapLocations.php:3-34 | over a full scan the callback fires iff some maximal run of equal JourneyID has its first-row start and last-row end equal to the POST values |
| InsertCustomRoute.CheckContainsLetters | php/insertNewCustomRoute.php:83-91 | true iff the string holds an ASCII letter |
| InsertCustomRoute.NameOrCoordinatesIsNull | php/insertNewCustomRoute.php:68-80 | the column text is the location or empty |
| InsertCustomRoute.OneColumnHoldsLocation | php/insertNewCustomRoute.php:68-91 | a location with a letter goes to Name and one without to Coordinates; exactly one column holds it |
| InsertCustomRoute.SqlField | php/insertNewCustomRoute.php:94-108 | a field renders as null exactly when it is empty |
| InsertCustomRoute.SqlFieldInjective | php/insertNewCustomRoute.php:94-108 | different texts render differently |
| InsertCustomRoute.InsertMapLocationSqlName | php/insertNewCustomRoute.php:94-108 | a named location is inserted with null coordinates and the quoted name |
| InsertCustomRoute.InsertMapLocationSqlCoordinates | php/insertNewCustomRoute.php:94-108 | a coordinate location is inserted with the quoted coordinates and a null name |
| InsertCustomRoute.InsertMapLocationSql | php/insertNewCustomRoute.php:94-108 | the INSERT of a map location; the column holding it is stated by InsertMapLocationSqlName and InsertMapLocationSqlCoordinates |
| InsertCustomRoute.InsertJourneySql | php/insertNewCustomRoute.php:111-118 | the INSERT of a Custom journey with the model and travel method; its place in the sequence is stated by InsertNewCustomRoute |
| InsertCustomRoute.InsertJourneyMapLocationsSql | php/insertNewCustomRoute.php:121-126 | the INSERT linking a journey to a location; its place in the sequence is stated by InsertNewCustomRoute |
| InsertCustomRoute.CreateNewRouteRows | php/insertNewCustomRoute.php:58-65 | start location, end location, journey, then the two links, in that order, as the `queries` ensures of InsertNewCustomRoute states |
| InsertCustomRoute.ScanCustomJourneys | php/insertNewCustomRoute.php:28-43 | routeExists becomes true iff some Custom journey matches the POST start and end |
| InsertCustomRoute.InsertNewCustomRoute | php/insertNewCustomRoute.php:9-55 | the model id comes from the URL lookup when POST says "null"; the route is looked up; the rows are created only when no journey matched, in order start, end, journey and two links |
| ModelLookup.FirstModelID | php/require/_getIDIfModelExists.php:16-24 | −1 iff no row has the URL, otherwise the ModelID of the first row that has it |
| ModelLookup.FirstModelIDIgnoresLater | php/require/_getIDIfModelExists.php:22 | rows after the first match never change the result |
| ModelLookup.GetIDIfModelExists | php/require/_getIDIfModelExists.php:7-27 | the query is `SELECT * FROM model` plus the extra arguments and the loop returns the first matching ModelID, or −1 |

## Left out

- Google Earth plug-in calls are not modelled: event listeners, `setFlyToSpeed`, LookAt and placemark creation, `fetchKml`, `parseKml` and `updatePosition`. Where their order matters they appear as returned events (`FrameEvent`, `FrameMove`, `ModelFetch`). `getHeading`, `interpolateLoc` and `distance` are uninterpreted.
- DOM, jQuery and timing are presentation only: slides, show and hide, sliders, `setTimeout` delays and the overlay centring of `scripts/main.js`.
- AJAX, the directions service and database queries are network or database I/O. Their outcome (success flag, rows, directions result, server reply) is a parameter. Callbacks are modelled as returned sequences (`inserted`, `removedRoutes`, `removedURLs`, the matched rows).
- Floating point is modelled as exact `real`. JavaScript's number-to-text is the parameter `numberText`.
- `checkAtStartPos`/`checkCoordinateMatches` (rounding with `toFixed(4)`) and `calculateRequiredRange` rely on floating-point rounding. They are not part of this model; the "at the start position" answer is the parameter of `FrameEnd`.
- RouteCreation.CalculatePathDetailsDuration, RouteCreation.DrawStepLine, RouteCreation.DrawLegLine, RouteCreation.DrawRouteLeg, RouteCreation.DrawRouteLine and RouteCreation.GetDirections: require a non-zero step distance for every step with coordinates (`StepDivisible`, `LegDivisible`, `RouteDivisible`). The source divides without a guard, and 0/0 gives NaN in JavaScript.
- RouteCreation.DrawRouteLine, RouteCreation.DrawRouteLeg and RouteCreation.GetDirections: require non-negative leg durations, which the directions service supplies. The source does not check them. They keep the required travel time non-negative.
- ModelAnimation.ModelSimulator.CalcNextAnimationFrame: on the finishing frame the source reads the entry after the last one and fails. The model reports this as `NoNextNode` and does not move the model.
- ModelAnimation.ModelSimulator.ModelMovementDriver: on an empty path the source fails reading the first entry. The model returns `ok == false` with nothing attached.
- RouteCreation.GetDirections: covers the drawing and the error message only. Tracking the model after drawing is not modelled (plug-in calls).
- Interruption, three cases:
  - A reset during the initial-view wait is undone. When the camera arrives, the wait listener sets `doAnimation` back to true and animation starts (`FrameEnd`).
  - A reset after the finishing frame, when no coordinates remain, still runs the end-of-simulation tasks. The source decides on the coordinates alone (`CompletedTasksRun`).
  - The listeners `waitForInitialView` and `animationCB` are implicit globals shared by every simulator. A later session reassigns them, and an older session's `removeEventListener` can then detach the newer session's listener. The model keeps one `listener` field per simulator, so this sharing is not captured.
- `totalTime` is kept and proved to equal the elapsed step time plus the durations of the steps passed. The source never reads it.
- Menu.OptGroup.AddToOptGroup: keeps the value whole. The source splices it unescaped into `<option value='…'>`, so the browser cuts it at its first `'`. The form does not reject `'`. So the value round trip (`Database.RouteValueRoundTrip`, `Database.CustomRouteRoundTrip`), the de-duplication and the removal of old custom routes hold in the source only for values without `'`. For example, "St John's Wood;Bank" reads back as From "St John" with no To, and "O'Hare;X" and "O'Neil;Y" count as the same option.
- MainScript.ToUpper, MainScript.ReplaceFrom and MainScript.Capitalize: upper-case ASCII letters only, which keeps the length. JavaScript's `toUpperCase` also maps non-ASCII letters, and some change length ("ß" becomes "SS", "ﬁ" becomes "FI"). The length-keeping contracts hold only under the ASCII mapping.
- SQL escaping and injection are not modelled: the concatenated SQL text is the output. PHP's loose `==` between numeric strings is modelled only where the source relies on it (`== null`, the JourneyID comparison).
- ModelCreation.GetKmlModelChild: the TypeError thrown on a placemark with a null geometry is the returned flag `threw`, which IsKmlObjectAModel, ValidKmlObject and CreateModelKmlObjectParser pass on. The exception leaving the `fetchKml` callback is not modelled beyond that: nothing further happens.
- Row order: the journey queries of `php/populateMenuRoutes.php` and `php/insertNewCustomRoute.php` have no `ORDER BY`, but both scans treat the rows of a journey as consecutive, first row first. The model takes the rows in the order returned, as the source does. A database that returns a journey's rows apart or out of sequence gives two journeys or swapped ends, in the source and in the model alike. A journey is correct only under the ordering the source assumes.
- The PHP null start location of a journey scan is modelled as the empty text. A JavaScript `undefined` start prints as "undefined".
- `parseModelJSONData` and `populateMenuModels` fill the model menu from database rows. They are not part of this model.
- `removeOldCustomRoutesFromDB` and `removeOldCustomModelsFromDB` are AJAX calls. They are modelled as the removed values returned to the caller.
- `php/checkColladaExists.php`, `php/populateMenuRoutes.php`, `php/insertNewCustomModel.php`, `php/deleteOldCustomModel.php` and `php/deleteOldCustomRoute.php` are database or network plumbing. They are not part of this model.

=== FILE: common.dfy ===
/**
 * Values and string helpers shared by the browser scripts and the PHP pages:
 * an Option for the places where JavaScript gives `null`/`undefined`, the
 * decimal text of a number as JavaScript and PHP print it, and the few
 * string searches (split, last index, prefix, suffix) the code relies on.
 */
module Common {

  datatype Option<T> = None | Some(value: T)

  /** The character for a decimal digit. */
  function Digit(d: nat): (c: char)
    requires d < 10
    ensures '0' <= c <= '9'
    ensures (c as int) - ('0' as int) == d
  {
    (('0' as int) + d) as char
  }

  predicate IsDigit(c: char) {
    '0' <= c <= '9'
  }

  /** The decimal text of a natural number, as `n + ""` gives it in JavaScript or PHP. */
  function NatToString(n: nat): (s: string)
    ensures |s| >= 1
    ensures forall i :: 0 <= i < |s| ==> IsDigit(s[i])
    ensures |s| > 1 ==> s[0] != '0'
    decreases n
  {
    if n < 10 then [Digit(n)] else NatToString(n / 10) + [Digit(n % 10)]
  }

  /** The value of a string of decimal digits, most significant first. */
  function DecimalValue(s: string): nat
    requires forall i :: 0 <= i < |s| ==> IsDigit(s[i])
  {
    if s == [] then 0
    else DecimalValue(s[..|s| - 1]) * 10 + DigitValue(s[|s| - 1])
  }

  function DigitValue(c: char): nat
    requires IsDigit(c)
  {
    (c as int) - ('0' as int)
  }

  /** Printing a number and reading it back gives the number. */
  lemma {:induction false} NatToStringRoundTrip(n: nat)
    ensures DecimalValue(NatToString(n)) == n
    decreases n
  {
    var s := NatToString(n);
    if n >= 10 {
      NatToStringRoundTrip(n / 10);
      assert s[..|s| - 1] == NatToString(n / 10);
    }
  }

  /** Distinct numbers print as distinct texts. */
  lemma NatToStringInjective(m: nat, n: nat)
    requires NatToString(m) == NatToString(n)
    ensures m == n
  {
    NatToStringRoundTrip(m);
    NatToStringRoundTrip(n);
  }

  /** The decimal text of an integer: a minus sign before the digits of a negative one. */
  function IntToString(i: int): (s: string)
    ensures i < 0 <==> (|s| > 0 && s[0] == '-')
  {
    if i < 0 then "-" + NatToString(-i) else NatToString(i)
  }

  /** `s.split(sep)` in JavaScript (and `explode` in PHP): the pieces between separators, in order. */
  function Split(s: string, sep: char): (pieces: seq<string>)
    ensures |pieces| >= 1
    ensures sep !in s ==> pieces == [s]
    decreases |s|
  {
    if s == [] then [""]
    else if s[0] == sep then [""] + Split(s[1..], sep)
    else
      var rest := Split(s[1..], sep);
      assert sep !in s ==> sep !in s[1..] && [s[0]] + s[1..] == s;
      [[s[0]] + rest[0]] + rest[1..]
  }

  /** Splitting text that is joined at a separator occurring in neither half gives back the two halves. */
  lemma {:induction false} SplitJoined(a: string, sep: char, b: string)
    requires sep !in a
    ensures Split(a + [sep] + b, sep) == [a] + Split(b, sep)
    decreases |a|
  {
    if a == [] {
      assert a + [sep] + b == [sep] + b;
      assert ([sep] + b)[1..] == b;
    } else {
      var t := a + [sep] + b;
      assert t[0] == a[0];
      assert t[1..] == a[1..] + [sep] + b;
      SplitJoined(a[1..], sep, b);
      assert [a[0]] + a[1..] == a;
    }
  }

  /**
   * `p` is the text of `s` up to its first `sep`: a prefix holding no `sep`
   * that is followed by `sep` or ends `s`.
   */
  predicate FieldBefore(s: string, sep: char, p: string) {
    && p <= s
    && sep !in p
    && (|p| < |s| ==> s[|p|] == sep)
  }

  /**
   * The first piece of a split is the text before the first separator, and
   * the pieces after it are the split of what follows that separator.
   */
  lemma {:induction false} SplitFirst(s: string, sep: char)
    ensures FieldBefore(s, sep, Split(s, sep)[0])
    ensures |Split(s, sep)| > 1 <==> sep in s
    ensures sep in s ==> Split(s, sep)[1..] == Split(s[|Split(s, sep)[0]| + 1..], sep)
    decreases |s|
  {
    if s != [] && s[0] != sep {
      SplitFirst(s[1..], sep);
      var rest := Split(s[1..], sep);
      assert Split(s, sep)[0] == [s[0]] + rest[0];
      assert [s[0]] + s[1..] == s;
      assert sep in s <==> sep in s[1..];
      if sep in s {
        assert s[|Split(s, sep)[0]| + 1..] == s[1..][|rest[0]| + 1..];
      }
    }
  }

  /** The last index of `c` in `s`, or -1, as `lastIndexOf` returns it. */
  function LastIndexOf(s: string, c: char): (r: int)
    ensures -1 <= r < |s|
    ensures r == -1 <==> c !in s
    ensures r >= 0 ==> s[r] == c && forall j :: r < j < |s| ==> s[j] != c
    decreases |s|
  {
    if s == [] then -1
    else if s[|s| - 1] == c then |s| - 1
    else
      var r := LastIndexOf(s[..|s| - 1], c);
      assert c in s ==> c in s[..|s| - 1] by {
        if c in s {
          var k :| 0 <= k < |s| && s[k] == c;
          assert s[..|s| - 1][k] == c;
        }
      }
      r
  }

  /** Whether `s` ends with the literal text `suffix`. */
  predicate EndsWith(s: string, suffix: string) {
    |suffix| <= |s| && s[|s| - |suffix|..] == suffix
  }
}

=== FILE: database.dfy ===
/**
 * The menu data of scripts/database.js: the route options built from the
 * journey rows, the choice between a location's name and its coordinates,
 * the adding of a custom route or model to the menu, the model name and
 * travel method id, and the `dbError` flag that shows a database error
 * once until the connection is retried.
 */
module Database {
  import opened Common
  import opened JourneyRuns
  import opened Menu
  import MainScript
  import RouteCreation

  /**
   * A call of addToOptGroup for the route list: the element id of the
   * option group (None when the record's Type names no group), the value
   * and the text.
   */
  datatype RouteOption = RouteOption(group: Option<string>, value: string, text: string)

  /** The name of a location, or its coordinates when it has none. */
  function UseNameOrCoordinates(row: Row): (location: string)
    ensures row.name.Some? ==> location == row.name.value
    ensures row.name.None? ==> location == row.coordinates
  {
    if row.name.None? then row.coordinates else row.name.value
  }

  /** The option of a route from `startLocation` to `endLocation`. */
  function SetRouteOptGroupValAndText(startLocation: string, endLocation: string, optGroup: Option<string>): (option: RouteOption)
    ensures option.group == optGroup
    ensures option.text == startLocation + " to " + endLocation
  {
    RouteOption(optGroup, startLocation + ";" + endLocation, startLocation + " to " + endLocation)
  }

  /** The route planner reads back exactly the start and end an option's value was made from, when neither holds a semicolon. */
  lemma RouteValueRoundTrip(startLocation: string, endLocation: string, optGroup: Option<string>)
    requires ';' !in startLocation && ';' !in endLocation
    ensures RouteCreation.TokenizeRouteValue(SetRouteOptGroupValAndText(startLocation, endLocation, optGroup).value)
         == RouteCreation.RoutePoints(startLocation, Some(endLocation))
  {
    RouteCreation.TokenizeRoundTrip(startLocation, endLocation);
  }

  /**
   * Choosing a route option from the menu asks the route planner for
   * directions from the option's start to its end, when neither holds a
   * semicolon.
   */
  lemma SelectedRouteOptionRequest(startLocation: string, endLocation: string, optGroup: Option<string>,
                                   customFrom: string, customTo: string, travelMethod: string)
    requires ';' !in startLocation && ';' !in endLocation
    ensures var option := SetRouteOptGroupValAndText(startLocation, endLocation, optGroup);
      RouteCreation.RouteCreationRequest(false, customFrom, customTo, option.value, travelMethod)
        == RouteCreation.DirectionsRequest(startLocation, Some(endLocation), RouteCreation.DetermineTransitType(travelMethod))
  {
    RouteCreation.SelectedRouteRequest(startLocation, endLocation, customFrom, customTo, travelMethod);
  }

  /** The option that closes a journey whose last row is `row`. */
  function FinalizeRouteMenuOptionData(row: Row, startLocation: string): (option: RouteOption)
    ensures option.group == DetermineMenuItemOptGroup(row.journeyType, "route")
    ensures option.text == startLocation + " to " + UseNameOrCoordinates(row)
  {
    var endLocation := UseNameOrCoordinates(row);
    SetRouteOptGroupValAndText(startLocation, endLocation, DetermineMenuItemOptGroup(row.journeyType, "route"))
  }

  /**
   * The start text of the journey whose first row is `k`. A first row whose
   * JourneyID equals the initial current journey 0 is not seen as a new
   * journey, and its start stays undefined, which prints as "undefined".
   */
  function StartText(rows: seq<Row>, k: nat): string
    requires k < |rows|
  {
    if k == 0 && rows[0].journeyId == 0 then "undefined" else UseNameOrCoordinates(rows[k])
  }

  /** The options of the journeys that end among the first `m` rows, in row order. */
  function Emitted(rows: seq<Row>, m: nat): seq<RouteOption>
    requires m <= |rows|
  {
    if m == 0 then []
    else
      Emitted(rows, m - 1)
      + if EndsJourney(rows, m - 1)
        then [FinalizeRouteMenuOptionData(rows[m - 1], StartText(rows, JourneyStart(rows, m - 1)))]
        else []
  }

  /** The route options of all rows: one per journey, in row order. */
  function RouteOptions(rows: seq<Row>): seq<RouteOption> {
    Emitted(rows, |rows|)
  }

  lemma {:induction false} EmittedPrefix(rows: seq<Row>, m: nat, n: nat)
    requires m <= n <= |rows|
    ensures Emitted(rows, m) <= Emitted(rows, n)
    decreases n - m
  {
    if m < n {
      EmittedPrefix(rows, m + 1, n);
    }
  }

  /** The options handed to addToOptGroup before the first one whose group is undefined, where the source throws. */
  function Delivered(options: seq<RouteOption>): (delivered: seq<RouteOption>)
    ensures delivered <= options
  {
    if options == [] || options[0].group.None? then []
    else [options[0]] + Delivered(options[1..])
  }

  predicate AllGrouped(options: seq<RouteOption>) {
    forall k :: 0 <= k < |options| ==> options[k].group.Some?
  }

  lemma {:induction false} DeliveredAll(options: seq<RouteOption>)
    requires AllGrouped(options)
    ensures Delivered(options) == options
  {
    if options != [] {
      DeliveredAll(options[1..]);
    }
  }

  lemma {:induction false} DeliveredUpTo(options: seq<RouteOption>, before: seq<RouteOption>, stop: RouteOption)
    requires before + [stop] <= options && AllGrouped(before) && stop.group.None?
    ensures Delivered(options) == before
  {
    if before != [] {
      assert before[1..] + [stop] <= options[1..];
      DeliveredUpTo(options[1..], before[1..], stop);
    }
  }

  /**
   * The first half of getStartEndLocation at row `index`: when the
   * JourneyID differs from the current journey, close the previous journey
   * (unless this is the first row) and take this row's location as the new
   * start. Closing a journey whose group is undefined throws.
   */
  method CloseJourneyOnChange(rows: seq<Row>, index: nat, previousRecord: Option<Row>, currentJourney: JourneyValue,
                              startIn: string, addedIn: seq<RouteOption>)
    returns (startEndLocation: string, added: seq<RouteOption>, threw: bool)
    requires index < |rows|
    requires index == 0 ==> currentJourney == JourneyId(0) && startIn == "undefined" && addedIn == []
    requires 0 < index ==> previousRecord == Some(rows[index - 1]) && currentJourney == JourneyId(rows[index - 1].journeyId)
    requires 0 < index ==> startIn == StartText(rows, JourneyStart(rows, index - 1)) && addedIn == Emitted(rows, index - 1)
    requires AllGrouped(addedIn)
    ensures threw ==> added == Delivered(RouteOptions(rows)) && added != RouteOptions(rows)
    ensures !threw ==> AllGrouped(added) && added == Emitted(rows, index)
    ensures !threw ==> startEndLocation == StartText(rows, JourneyStart(rows, index))
  {
    added := addedIn;
    startEndLocation := startIn;
    threw := false;
    var dbRecord := rows[index];
    if LooselyDiffers(currentJourney, dbRecord.journeyId) {
      if index != 0 {
        var option := FinalizeRouteMenuOptionData(previousRecord.value, startEndLocation);
        assert added + [option] == Emitted(rows, index);
        if option.group.None? {
          EmittedPrefix(rows, index, |rows|);
          DeliveredUpTo(RouteOptions(rows), added, option);
          return startEndLocation, added, true;
        }
        added := added + [option];
      }
      startEndLocation := UseNameOrCoordinates(dbRecord);
    }
  }

  /**
   * getStartEndLocation at row `index`: the journey change above, then, at
   * the last row, the closing of the last journey; the start location of the
   * current journey is returned for the next row.
   */
  method GetStartEndLocation(rows: seq<Row>, index: nat, previousRecord: Option<Row>, currentJourney: JourneyValue,
                       startIn: string, addedIn: seq<RouteOption>)
    returns (startEndLocation: string, added: seq<RouteOption>, threw: bool)
    requires index < |rows|
    requires index == 0 ==> currentJourney == JourneyId(0) && startIn == "undefined" && addedIn == []
    requires 0 < index ==> previousRecord == Some(rows[index - 1]) && currentJourney == JourneyId(rows[index - 1].journeyId)
    requires 0 < index ==> startIn == StartText(rows, JourneyStart(rows, index - 1)) && addedIn == Emitted(rows, index - 1)
    requires AllGrouped(addedIn)
    ensures threw ==> added == Delivered(RouteOptions(rows)) && added != RouteOptions(rows)
    ensures !threw ==> AllGrouped(added) && startEndLocation == StartText(rows, JourneyStart(rows, index))
    ensures !threw && index < |rows| - 1 ==> added == Emitted(rows, index)
    ensures !threw && index == |rows| - 1 ==> added == RouteOptions(rows)
  {
    startEndLocation, added, threw := CloseJourneyOnChange(rows, index, previousRecord, currentJourney, startIn, addedIn);
    if threw {
      return;
    }
    if index == |rows| - 1 {
      var option := FinalizeRouteMenuOptionData(rows[index], startEndLocation);
      assert added + [option] == RouteOptions(rows);
      if option.group.None? {
        DeliveredUpTo(RouteOptions(rows), added, option);
        return startEndLocation, added, true;
      }
      added := added + [option];
    }
  }

  /**
   * parseRouteJSONData: walk the rows, threading the previous record, the
   * current JourneyID and the start location of the current journey. The
   * options handed to the menu are those of the journeys in row order, up to
   * the first whose group is undefined, where the walk throws.
   */
  method ParseRouteJSONData(rows: seq<Row>) returns (added: seq<RouteOption>, threw: bool)
    ensures added == Delivered(RouteOptions(rows))
    ensures threw <==> added != RouteOptions(rows)
  {
    var previousRecord: Option<Row> := None;
    var startEndLocation := "undefined";
    var currentJourney := JourneyId(0);
    added := [];
    threw := false;
    var index := 0;
    while index < |rows|
      invariant 0 <= index <= |rows|
      invariant index == 0 ==> currentJourney == JourneyId(0) && startEndLocation == "undefined" && added == []
      invariant 0 < index ==> previousRecord == Some(rows[index - 1]) && currentJourney == JourneyId(rows[index - 1].journeyId)
      invariant 0 < index ==> startEndLocation == StartText(rows, JourneyStart(rows, index - 1))
      invariant 0 < index < |rows| ==> added == Emitted(rows, index - 1)
      invariant index == |rows| ==> added == RouteOptions(rows)
      invariant AllGrouped(added)
    {
      var dbRecord := rows[index];
      startEndLocation, added, threw := GetStartEndLocation(rows, index, previousRecord, currentJourney, startEndLocation, added);
      if threw {
        return;
      }
      previousRecord := Some(dbRecord);
      currentJourney := CheckUpdateCurrentJourney(Record(dbRecord), dbRecord.journeyId);
      index := index + 1;
    }
    DeliveredAll(RouteOptions(rows));
  }

  /** The option of one journey: start from its first row, end and group from its last. */
  function RunOption(rows: seq<Row>, run: Run): (option: RouteOption)
    requires run.first <= run.last < |rows|
  {
    FinalizeRouteMenuOptionData(rows[run.last], StartText(rows, run.first))
  }

  /** The options emitted over the first `m` rows are those of the journeys the walk closes there, one each, in order. */
  lemma {:induction false} EmittedFollowsEndedRuns(rows: seq<Row>, m: nat)
    requires m <= |rows|
    ensures RunsWithin(EndedRuns(rows, m), m)
    ensures |Emitted(rows, m)| == |EndedRuns(rows, m)|
    ensures forall k :: 0 <= k < |EndedRuns(rows, m)| ==> Emitted(rows, m)[k] == RunOption(rows, EndedRuns(rows, m)[k])
  {
    EndedRunsWithin(rows, m);
    if m > 0 {
      EmittedFollowsEndedRuns(rows, m - 1);
    }
  }

  /**
   * The route list gets one option per journey, a journey being a maximal
   * run of consecutive rows with one JourneyID, in row order; each option
   * takes its start from the journey's first row and its end and group from
   * its last row.
   */
  lemma RouteOptionsFollowJourneys(rows: seq<Row>)
    ensures var runs := RunsOf(Ids(rows), |rows|);
      && MaximalRuns(Ids(rows), |rows|, runs)
      && |RouteOptions(rows)| == |runs|
      && forall k :: 0 <= k < |runs| ==> runs[k].first <= runs[k].last < |rows| && RouteOptions(rows)[k] == RunOption(rows, runs[k])
  {
    EndedRunsAreRuns(rows);
    EndedRunsMaximal(rows);
    EmittedFollowsEndedRuns(rows, |rows|);
  }

  /** The name of a model: the part of its URL after the last slash, or the whole URL when there is none. */
  function GetModelName(modelURL: string): (modelName: string)
    ensures '/' !in modelName
    ensures EndsWith(modelURL, modelName)
    ensures |modelName| < |modelURL| ==> modelURL[|modelURL| - |modelName| - 1] == '/'
    ensures '/' !in modelURL ==> modelName == modelURL
  {
    var lastForwardSlash := LastIndexOf(modelURL, '/');
    var name := modelURL[lastForwardSlash + 1..];
    assert forall k :: 0 <= k < |name| ==> name[k] == modelURL[lastForwardSlash + 1 + k];
    name
  }

  /** The database id of a travel method: 1 for driving, 2 for transit, none for anything else. */
  function GetTravelMethodID(travelMethod: string): (methodID: Option<int>)
    ensures methodID == Some(1) <==> travelMethod == "driving"
    ensures methodID == Some(2) <==> travelMethod == "transit"
    ensures methodID.None? <==> travelMethod != "driving" && travelMethod != "transit"
  {
    match travelMethod
    case "driving" => Some(1)
    case "transit" => Some(2)
    case _ => None
  }

  /** A travel method has a database id exactly when the route planner knows its travel mode. */
  lemma TravelMethodIdMatchesMode(travelMethod: string)
    ensures GetTravelMethodID(travelMethod).Some? <==> RouteCreation.DetermineTransitType(travelMethod).Some?
    ensures GetTravelMethodID(travelMethod) == Some(1) <==> RouteCreation.DetermineTransitType(travelMethod) == Some(RouteCreation.Driving)
  {
  }

  /** What happens to the database connection: a data request that succeeds or fails, or a retry. */
  datatype DbEvent = Request(succeeded: bool) | Retry

  /** The error flag after an event, and whether the event shows the database error. */
  function DbStep(dbError: bool, event: DbEvent): (r: (bool, bool))
    ensures r.1 ==> !dbError && r.0
  {
    match event
    case Request(succeeded) => if succeeded || dbError then (dbError, false) else (true, true)
    case Retry => (false, false)
  }

  /** How many times the error is shown over a sequence of events. */
  function ErrorsShown(dbError: bool, events: seq<DbEvent>): nat
    decreases |events|
  {
    if events == [] then 0
    else
      var (nextError, shown) := DbStep(dbError, events[0]);
      (if shown then 1 else 0) + ErrorsShown(nextError, events[1..])
  }

  /** Without a retry the error is shown at most once, and not at all when it is already flagged. */
  lemma {:induction false} ErrorShownOnceWithoutRetry(dbError: bool, events: seq<DbEvent>)
    requires Retry !in events
    ensures ErrorsShown(dbError, events) <= (if dbError then 0 else 1)
    decreases |events|
  {
    if events != [] {
      assert Retry !in events[1..] by {
        assert forall k :: 0 <= k < |events[1..]| ==> events[1..][k] == events[k + 1];
      }
      ErrorShownOnceWithoutRetry(DbStep(dbError, events[0]).0, events[1..]);
    }
  }

  /** A failed request after a retry, or at the start, is always reported. */
  lemma FailureAfterRetryShown(events: seq<DbEvent>)
    ensures ErrorsShown(false, [Request(false)] + events) >= 1
    ensures ErrorsShown(true, [Retry, Request(false)] + events) >= 1
  {
    assert ([Retry, Request(false)] + events)[1..] == [Request(false)] + events;
    assert ([Request(false)] + events)[1..] == events;
  }

  /** The global `dbError` flag. */
  class DbStatus {
    var dbError: bool

    constructor ()
      ensures !dbError
    {
      dbError := false;
    }

    /**
     * getDBJSONData: a failed request shows the error only when none has
     * been shown since the last retry; a successful one hands its data on
     * and changes nothing here.
     */
    method GetDBJSONData(succeeded: bool) returns (errorShown: bool)
      modifies this
      ensures (dbError, errorShown) == DbStep(old(dbError), Request(succeeded))
    {
      errorShown := false;
      if !succeeded {
        if !dbError {
          dbError := true;
          errorShown := true;
        }
      }
    }

    /** retryConnection: clear the flag, so the next failure is shown again. */
    method RetryConnection()
      modifies this
      ensures (dbError, false) == DbStep(old(dbError), Retry)
    {
      dbError := false;
    }
  }

  /** The maximum number of entries of a recent-custom option group. */
  const MaxCustomItems := 5

  /**
   * addNewCustomRoute: when a custom route was entered, add its capitalised
   * From/To as an option of the recent-custom route group, send it to the
   * database (`inserted`), and cut the group to five options; each removed
   * option's value is tokenised and its From/To sent for deletion
   * (`removedRoutes`, in order).
   */
  method AddNewCustomRoute(optGroup: OptGroup, routeValue: string, customRouteFrom: string, customRouteTo: string)
    returns (inserted: Option<(string, string)>, removedRoutes: seq<RouteCreation.RoutePoints>)
    modifies optGroup
    ensures routeValue != "custom" ==> inserted == None && removedRoutes == [] && optGroup.options == old(optGroup.options)
    ensures routeValue == "custom" ==>
      var startLocation := MainScript.Capitalize(customRouteFrom);
      var endLocation := MainScript.Capitalize(customRouteTo);
      var option := SetRouteOptGroupValAndText(startLocation, endLocation, DetermineMenuItemOptGroup("Custom", "route"));
      var added := AddedOptions(old(optGroup.options), option.value, option.text);
      var keep := KeptCount(|added|, MaxCustomItems);
      && inserted == Some((startLocation, endLocation))
      && optGroup.options == added[..keep]
      && |removedRoutes| == |added| - keep
      && forall k :: 0 <= k < |removedRoutes| ==> removedRoutes[k] == RouteCreation.TokenizeRouteValue(added[keep + k].value)
  {
    inserted := None;
    removedRoutes := [];
    if routeValue == "custom" {
      var startLocation := MainScript.Capitalize(customRouteFrom);
      var endLocation := MainScript.Capitalize(customRouteTo);
      var option := SetRouteOptGroupValAndText(startLocation, endLocation, DetermineMenuItemOptGroup("Custom", "route"));
      optGroup.AddToOptGroup(option.value, option.text);
      inserted := Some((startLocation, endLocation));
      var removed := optGroup.RemoveOldCustomOptEntries(MaxCustomItems);
      removedRoutes := seq(|removed|, k requires 0 <= k < |removed| => RouteCreation.TokenizeRouteValue(removed[k]));
    }
  }

  /**
   * A custom route that passed the form's checks comes back from its own
   * option value as the capitalised From and To, so the entry deleted when
   * it is cut from the menu is the one that was inserted.
   */
  lemma CustomRouteRoundTrip(form: FormValues)
    requires form.route == "custom" && !FormHasError(form)
    ensures var startLocation := MainScript.Capitalize(form.customRouteFrom);
      var endLocation := MainScript.Capitalize(form.customRouteTo);
      RouteCreation.TokenizeRouteValue(SetRouteOptGroupValAndText(startLocation, endLocation, DetermineMenuItemOptGroup("Custom", "route")).value)
        == RouteCreation.RoutePoints(startLocation, Some(endLocation))
  {
    AcceptedCustomRoute(form);
    MainScript.CapitalizeKeepsSemicolonFree(form.customRouteFrom);
    MainScript.CapitalizeKeepsSemicolonFree(form.customRouteTo);
    RouteValueRoundTrip(MainScript.Capitalize(form.customRouteFrom), MainScript.Capitalize(form.customRouteTo), DetermineMenuItemOptGroup("Custom", "route"));
  }

  /**
   * addNewCustomModel: when a custom model was entered, add its URL, named by
   * the URL's last part, to the recent-custom model group, send it to the
   * database and cut the group to five options, returning the removed URLs;
   * otherwise the route is added at once with the model id "null".
   */
  method AddNewCustomModel(optGroup: OptGroup, modelValue: string, modelURL: string)
    returns (inserted: Option<(string, string)>, removedURLs: seq<string>, immediateModelID: Option<string>)
    modifies optGroup
    ensures modelValue != "custom" ==>
      inserted == None && removedURLs == [] && immediateModelID == Some("null") && optGroup.options == old(optGroup.options)
    ensures modelValue == "custom" ==>
      var added := AddedOptions(old(optGroup.options), modelURL, GetModelName(modelURL));
      var keep := KeptCount(|added|, MaxCustomItems);
      && inserted == Some((GetModelName(modelURL), modelURL))
      && immediateModelID == None
      && optGroup.options == added[..keep]
      && removedURLs == Values(added[keep..])
  {
    inserted := None;
    removedURLs := [];
    immediateModelID := None;
    if modelValue == "custom" {
      var modelName := GetModelName(modelURL);
      optGroup.AddToOptGroup(modelURL, modelName);
      inserted := Some((modelName, modelURL));
      removedURLs := optGroup.RemoveOldCustomOptEntries(MaxCustomItems);
    } else {
      immediateModelID := Some("null");
    }
  }
}

=== FILE: insert_custom_route.dfy ===
/**
 * php/insertNewCustomRoute.php: store a custom route posted by the browser.
 * The model is looked up by URL when none was posted; the Custom journeys
 * are scanned for one with the posted start and end; and only when there is
 * none are a start location, an end location, a journey and two links
 * between them inserted. The rows of the queries and the ids the database
 * assigns to inserted rows are parameters; the SQL text of every statement
 * is the result.
 */
module InsertCustomRoute {
  import opened Common
  import opened JourneyRuns
  import opened JourneyLocations
  import opened ModelLookup

  /** The `newCustomRoute` record of the POST. */
  datatype RouteDetails = RouteDetails(startLocation: string, endLocation: string, modelID: string, methodID: string, modelURL: string)

  /** The ids the database hands out for the rows createNewRouteRows inserts. */
  datatype InsertIds = InsertIds(startLocationID: nat, endLocationID: nat, journeyID: nat)

  predicate IsAsciiLetter(c: char) {
    'a' <= c <= 'z' || 'A' <= c <= 'Z'
  }

  /** Whether the text matches `/[a-zA-Z]/`. */
  function CheckContainsLetters(str: string): (containsLetters: bool)
    ensures containsLetters <==> exists i :: 0 <= i < |str| && IsAsciiLetter(str[i])
  {
    if str == [] then false
    else
      var rest := CheckContainsLetters(str[1..]);
      assert forall i :: 0 < i < |str| ==> str[i] == str[1..][i - 1];
      IsAsciiLetter(str[0]) || rest
  }

  /**
   * The text to store in a maplocation column: a location with a letter is
   * a name, so it is blanked for the coordinates column; one without is
   * coordinates, so it is blanked for the name column.
   */
  function NameOrCoordinatesIsNull(location: string, column: string): (textToUse: string)
    ensures textToUse == location || textToUse == ""
  {
    if CheckContainsLetters(location) && column == "coordinates" then ""
    else if !CheckContainsLetters(location) && column == "name" then ""
    else location
  }

  /** A location lands in exactly one of the two columns: the name column iff it has a letter. */
  lemma OneColumnHoldsLocation(location: string)
    ensures NameOrCoordinatesIsNull(location, "coordinates") + NameOrCoordinatesIsNull(location, "name") == location
    ensures NameOrCoordinatesIsNull(location, "name") == (if CheckContainsLetters(location) then location else "")
    ensures NameOrCoordinatesIsNull(location, "coordinates") == (if CheckContainsLetters(location) then "" else location)
  {
  }

  /** A column value in an INSERT: `null` for the empty text, the text in single quotes otherwise. */
  function SqlField(text: string): (field: string)
    ensures field == "null" <==> text == ""
  {
    if text == "" then "null"
    else
      var quoted := "'" + text + "'";
      assert quoted[0] != "null"[0];
      quoted
  }

  /** Distinct column values give distinct SQL fields, and the empty one alone gives `null`. */
  lemma SqlFieldInjective(a: string, b: string)
    requires SqlField(a) == SqlField(b)
    ensures a == b
  {
    if a != "" {
      assert a == SqlField(a)[1..|SqlField(a)| - 1];
      assert b == SqlField(b)[1..|SqlField(b)| - 1];
    }
  }

  const MapLocationInsert := "INSERT INTO maplocation (Coordinates, Name) VALUES ("

  /** The INSERT of insertMapLocation: Coordinates first, then Name. */
  function InsertMapLocationSql(location: string): (sql: string)
  {
    MapLocationInsert
    + SqlField(NameOrCoordinatesIsNull(location, "coordinates"))
    + ", "
    + SqlField(NameOrCoordinatesIsNull(location, "name"))
    + ")"
  }

  /** A location with a letter is inserted as a name, with null coordinates. */
  lemma InsertMapLocationSqlName(location: string)
    requires CheckContainsLetters(location)
    ensures InsertMapLocationSql(location) == MapLocationInsert + "null, '" + location + "')"
  {
    OneColumnHoldsLocation(location);
    assert location != "";
    var quoted := "'" + location + "'";
    assert InsertMapLocationSql(location) == MapLocationInsert + "null" + ", " + quoted + ")";
    calc {
      MapLocationInsert + "null" + ", " + quoted + ")";
      MapLocationInsert + ("null" + ", " + "'") + location + ("'" + ")");
      { assert "null" + ", " + "'" == "null, '"; assert "'" + ")" == "')"; }
      MapLocationInsert + "null, '" + location + "')";
    }
  }

  /** A non-empty location without a letter is inserted as coordinates, with a null name. */
  lemma InsertMapLocationSqlCoordinates(location: string)
    requires location != "" && !CheckContainsLetters(location)
    ensures InsertMapLocationSql(location) == MapLocationInsert + "'" + location + "', null)"
  {
    OneColumnHoldsLocation(location);
    var quoted := "'" + location + "'";
    assert InsertMapLocationSql(location) == MapLocationInsert + quoted + ", " + "null" + ")";
    calc {
      MapLocationInsert + quoted + ", " + "null" + ")";
      MapLocationInsert + "'" + location + ("'" + ", " + "null" + ")");
      { assert "'" + ", " + "null" + ")" == "', null)"; }
      MapLocationInsert + "'" + location + "', null)";
    }
  }

  /** The INSERT of insertJourney: a Custom journey with the model and the travel method. */
  function InsertJourneySql(methodID: string, modelID: string): (sql: string)
  {
    "INSERT INTO journey (Type, ModelID, DesiredMethodID) VALUES ('Custom', '" + modelID + "', '" + methodID + "')"
  }

  /** The INSERT of insertJourneyMapLocations: one link between a journey and a location. */
  function InsertJourneyMapLocationsSql(journeyID: nat, locationID: nat): (sql: string)
  {
    "INSERT INTO journeymaplocations (JourneyID, MapLocationID) VALUES ('" + NatToString(journeyID) + "', '" + NatToString(locationID) + "')"
  }

  /**
   * createNewRouteRows: the start location, the end location, the journey,
   * then the links of the journey to the start and to the end, in that order.
   */
  function CreateNewRouteRows(routeDetails: RouteDetails, modelID: string, ids: InsertIds): seq<string>
  {
    [ InsertMapLocationSql(routeDetails.startLocation),
      InsertMapLocationSql(routeDetails.endLocation),
      InsertJourneySql(routeDetails.methodID, modelID),
      InsertJourneyMapLocationsSql(ids.journeyID, ids.startLocationID),
      InsertJourneyMapLocationsSql(ids.journeyID, ids.endLocationID) ]
  }

  /** The query joining every Custom journey with its map locations. */
  const JourneyQuery := "SELECT * FROM journey, journeymaplocations, maplocation WHERE journey.journeyID = journeymaplocations.journeyID AND journeymaplocations.maplocationid = maplocation.maplocationid AND journey.type = 'Custom'"

  /** The model of the route: the posted ModelID, or the lookup by URL when the POST says "null". */
  function ChosenModelID(routeDetails: RouteDetails, models: seq<ModelRow>): string
  {
    if routeDetails.modelID == "null" then IntToString(FirstModelID(models, routeDetails.modelURL)) else routeDetails.modelID
  }

  /**
   * The scan of the page over the journey query's rows: getStartEndLocation
   * on every row, with the match callback setting `routeExists`.
   */
  method ScanCustomJourneys(rows: seq<Row>, postStart: string, postEnd: string) returns (routeExists: bool)
    ensures var runs := RunsOf(Ids(rows), |rows|);
      && RunsWithin(runs, |rows|)
      && (routeExists <==> exists k :: 0 <= k < |runs| && RunMatches(rows, runs[k], postStart, postEnd))
  {
    routeExists := false;
    var index := 0;
    var journeyIndex := JourneyId(0);
    var startEndLocation := "";
    var previousRow: Option<Row> := None;
    while index < |rows|
      invariant 0 <= index <= |rows|
      invariant ScanState(rows, index, previousRow, journeyIndex, startEndLocation)
      invariant routeExists <==> |MatchedAfter(rows, index, postStart, postEnd)| > 0
    {
      var r := GetStartEndLocation(index, rows[index], previousRow, journeyIndex, startEndLocation, |rows|, postStart, postEnd);
      GetStartEndLocationKeepsState(rows, index, previousRow, journeyIndex, startEndLocation, postStart, postEnd);
      GetStartEndLocationReports(rows, index, previousRow, journeyIndex, startEndLocation, postStart, postEnd);
      StepReportsExtend(rows, index, postStart, postEnd);
      startEndLocation := r.0;
      if |r.1| > 0 {
        routeExists := true;
      }
      previousRow := Some(rows[index]);
      journeyIndex := CheckUpdateCurrentJourney(Record(rows[index]), rows[index].journeyId);
      index := index + 1;
    }
    MatchedIffSomeJourneyMatches(rows, postStart, postEnd);
  }

  /**
   * The page: `models` are the rows of the model lookup, `rows` those of the
   * journey query, in the order the database returns them. Returns the chosen ModelID, whether
   * the route exists, and every statement sent to the database, in order.
   */
  method InsertNewCustomRoute(routeDetails: RouteDetails, models: seq<ModelRow>, rows: seq<Row>, ids: InsertIds)
    returns (modelID: string, routeExists: bool, queries: seq<string>)
    ensures modelID == ChosenModelID(routeDetails, models)
    ensures var runs := RunsOf(Ids(rows), |rows|);
      && RunsWithin(runs, |rows|)
      && (routeExists <==> exists k :: 0 <= k < |runs| && RunMatches(rows, runs[k], routeDetails.startLocation, routeDetails.endLocation))
    ensures queries ==
      (if routeDetails.modelID == "null" then [ModelQuery] else [])
      + [JourneyQuery]
      + (if routeExists then [] else CreateNewRouteRows(routeDetails, modelID, ids))
  {
    var lookup: seq<string> := [];
    if routeDetails.modelID == "null" {
      var optWhereArgs := "";
      var sql, existingModelID := GetIDIfModelExists(models, routeDetails.modelURL, optWhereArgs);
      assert sql == ModelQuery + optWhereArgs == ModelQuery;
      lookup := [sql];
      modelID := IntToString(existingModelID);
    } else {
      modelID := routeDetails.modelID;
    }
    routeExists := ScanCustomJourneys(rows, routeDetails.startLocation, routeDetails.endLocation);
    var inserts := if routeExists then [] else CreateNewRouteRows(routeDetails, modelID, ids);
    queries := lookup + [JourneyQuery] + inserts;
  }
}

=== FILE: journey_locations.dfy ===
/**
 * The journey matching of php/require/_getJourneyFromMapLocations.php: the
 * per-row step of a scan over the Custom journeys' map-location rows,
 * which, at the last row of every journey, compares the journey's start and
 * end with the locations posted by the browser and reports a match through
 * a callback.
 */
module JourneyLocations {
  import opened Common
  import opened JourneyRuns

  /**
   * The name of a location unless it is loosely equal to null, which in PHP
   * a missing name and the empty string both are; then its coordinates.
   */
  function UseNameOrCoordinates(row: Row): (location: string)
    ensures row.name.None? || row.name == Some("") ==> location == row.coordinates
    ensures row.name.Some? && row.name != Some("") ==> location == row.name.value
  {
    if row.name.None? || row.name.value == "" then row.coordinates else row.name.value
  }

  function CheckJourneyAgainstPOST(startLocation: string, endLocation: string, postStartLocation: string, postEndLocation: string): (locationsMatch: bool)
    ensures locationsMatch <==> startLocation == postStartLocation && endLocation == postEndLocation
  {
    startLocation == postStartLocation && endLocation == postEndLocation
  }

  /** checkAddNewMapLocation: the row handed to the match callback, when the journey ending at `row` matches the POST. */
  function CheckAddNewMapLocation(row: Row, startLocation: string, postStartLocation: string, postEndLocation: string): (matched: seq<Row>)
    ensures |matched| <= 1 && forall k :: 0 <= k < |matched| ==> matched[k] == row
    ensures |matched| == 1 <==> CheckJourneyAgainstPOST(startLocation, UseNameOrCoordinates(row), postStartLocation, postEndLocation)
  {
    var endLocation := UseNameOrCoordinates(row);
    if CheckJourneyAgainstPOST(startLocation, endLocation, postStartLocation, postEndLocation) then [row] else []
  }

  /**
   * getStartEndLocation: when the row opens a new journey, check the one
   * before it (unless this is the first row) and take the row's location as
   * the new start; at the last row, check the journey it ends. Returns the
   * start location and the rows the match callback receives.
   */
  function GetStartEndLocation(index: nat, row: Row, previousRow: Option<Row>, journeyIndex: JourneyValue,
                               startEndLocation: string, numRows: nat, postStartLocation: string, postEndLocation: string): (r: (string, seq<Row>))
    requires index != 0 ==> previousRow.Some?
    ensures !LooselyDiffers(journeyIndex, row.journeyId) ==> r.0 == startEndLocation
    ensures |r.1| <= 2
    ensures forall k :: 0 <= k < |r.1| ==>
      (index == numRows - 1 && r.1[k] == row) || (index != 0 && r.1[k] == previousRow.value)
    ensures index != numRows - 1 && index == 0 ==> r.1 == []
  {
    var opens := LooselyDiffers(journeyIndex, row.journeyId);
    var closedBefore :=
      if opens && index != 0 then CheckAddNewMapLocation(previousRow.value, startEndLocation, postStartLocation, postEndLocation) else [];
    var start := if opens then UseNameOrCoordinates(row) else startEndLocation;
    var closedHere := if index == numRows - 1 then CheckAddNewMapLocation(row, start, postStartLocation, postEndLocation) else [];
    (start, closedBefore + closedHere)
  }

  /**
   * The start of the journey whose first row is `k`. The scan starts with a
   * null start location and JourneyID 0; a first row with JourneyID 0 keeps
   * that null, which compares with a posted location as the empty string does.
   */
  function StartText(rows: seq<Row>, k: nat): string
    requires k < |rows|
  {
    if k == 0 && rows[0].journeyId == 0 then "" else UseNameOrCoordinates(rows[k])
  }

  /** The journey `run` starts at the posted start location and ends at the posted end location. */
  predicate RunMatches(rows: seq<Row>, run: Run, postStartLocation: string, postEndLocation: string)
    requires run.first <= run.last < |rows|
  {
    StartText(rows, run.first) == postStartLocation && UseNameOrCoordinates(rows[run.last]) == postEndLocation
  }

  /** The rows the callback receives for the given journeys: the last row of each journey matching the POST, in order. */
  function MatchedOf(rows: seq<Row>, runs: seq<Run>, postStartLocation: string, postEndLocation: string): seq<Row>
    requires RunsWithin(runs, |rows|)
  {
    if runs == [] then []
    else
      var run := runs[|runs| - 1];
      MatchedOf(rows, runs[..|runs| - 1], postStartLocation, postEndLocation)
      + if RunMatches(rows, run, postStartLocation, postEndLocation) then [rows[run.last]] else []
  }

  /** The rows the callback receives over the journeys closed among the first `m` rows. */
  function Matched(rows: seq<Row>, m: nat, postStartLocation: string, postEndLocation: string): seq<Row>
    requires m <= |rows|
  {
    EndedRunsWithin(rows, m);
    MatchedOf(rows, EndedRuns(rows, m), postStartLocation, postEndLocation)
  }

  /** What the scan has reported after `index` rows: the journeys closed before the current one, or all after the last row. */
  function MatchedAfter(rows: seq<Row>, index: nat, postStartLocation: string, postEndLocation: string): seq<Row>
    requires index <= |rows|
  {
    if index == |rows| then Matched(rows, index, postStartLocation, postEndLocation)
    else if index == 0 then []
    else Matched(rows, index - 1, postStartLocation, postEndLocation)
  }

  /** The scan's state after `index` rows: the previous row, the current JourneyID and the current journey's start. */
  predicate ScanState(rows: seq<Row>, index: nat, previousRow: Option<Row>, journeyIndex: JourneyValue, startEndLocation: string)
    requires index <= |rows|
  {
    if index == 0 then previousRow == None && journeyIndex == JourneyId(0) && startEndLocation == ""
    else
      && previousRow == Some(rows[index - 1])
      && journeyIndex == JourneyId(rows[index - 1].journeyId)
      && startEndLocation == StartText(rows, JourneyStart(rows, index - 1))
  }

  /** Closing one more row adds the callback of the journey that row ends, if it ends one. */
  lemma MatchedExtend(rows: seq<Row>, m: nat, postStartLocation: string, postEndLocation: string)
    requires m < |rows|
    ensures Matched(rows, m + 1, postStartLocation, postEndLocation)
         == Matched(rows, m, postStartLocation, postEndLocation)
            + if EndsJourney(rows, m)
              then CheckAddNewMapLocation(rows[m], StartText(rows, JourneyStart(rows, m)), postStartLocation, postEndLocation)
              else []
  {
    EndedRunsWithin(rows, m);
    EndedRunsWithin(rows, m + 1);
    var ended := EndedRuns(rows, m);
    if EndsJourney(rows, m) {
      var more := ended + [Run(JourneyStart(rows, m), m)];
      assert EndedRuns(rows, m + 1) == more;
      assert more[..|more| - 1] == ended;
    } else {
      assert EndedRuns(rows, m + 1) == ended;
    }
  }

  /** One step of the scan keeps the state: the previous row, the JourneyID and the current journey's start. */
  lemma GetStartEndLocationKeepsState(rows: seq<Row>, index: nat, previousRow: Option<Row>, journeyIndex: JourneyValue,
                                      startEndLocation: string, postStartLocation: string, postEndLocation: string)
    requires index < |rows| && ScanState(rows, index, previousRow, journeyIndex, startEndLocation)
    ensures var r := GetStartEndLocation(index, rows[index], previousRow, journeyIndex, startEndLocation, |rows|, postStartLocation, postEndLocation);
      ScanState(rows, index + 1, Some(rows[index]), CheckUpdateCurrentJourney(Record(rows[index]), rows[index].journeyId), r.0)
  {
  }

  /** The callback rows of one step: the journey closing before row `index`, then, at the last row, the journey ending there. */
  function StepReports(rows: seq<Row>, index: nat, postStartLocation: string, postEndLocation: string): seq<Row>
    requires index < |rows|
  {
    (if index > 0 && EndsJourney(rows, index - 1)
     then CheckAddNewMapLocation(rows[index - 1], StartText(rows, JourneyStart(rows, index - 1)), postStartLocation, postEndLocation)
     else [])
    + (if index == |rows| - 1
       then CheckAddNewMapLocation(rows[index], StartText(rows, JourneyStart(rows, index)), postStartLocation, postEndLocation)
       else [])
  }

  /**
   * One step of the scan reports, through the callback, the journey that
   * closes before row `index` and, at the last row, the journey it ends.
   */
  lemma GetStartEndLocationReports(rows: seq<Row>, index: nat, previousRow: Option<Row>, journeyIndex: JourneyValue,
                                   startEndLocation: string, postStartLocation: string, postEndLocation: string)
    requires index < |rows| && ScanState(rows, index, previousRow, journeyIndex, startEndLocation)
    ensures GetStartEndLocation(index, rows[index], previousRow, journeyIndex, startEndLocation, |rows|, postStartLocation, postEndLocation).1
         == StepReports(rows, index, postStartLocation, postEndLocation)
  {
    GetStartEndLocationKeepsState(rows, index, previousRow, journeyIndex, startEndLocation, postStartLocation, postEndLocation);
  }

  /** The journey closing before row `index`, if any, completes the reports of the journeys closed among the first `index` rows. */
  lemma ClosedBeforeCompletes(rows: seq<Row>, index: nat, postStartLocation: string, postEndLocation: string)
    requires index < |rows|
    ensures MatchedAfter(rows, index, postStartLocation, postEndLocation)
            + (if index > 0 && EndsJourney(rows, index - 1)
               then CheckAddNewMapLocation(rows[index - 1], StartText(rows, JourneyStart(rows, index - 1)), postStartLocation, postEndLocation)
               else [])
         == Matched(rows, index, postStartLocation, postEndLocation)
  {
    if index > 0 {
      assert MatchedAfter(rows, index, postStartLocation, postEndLocation) == Matched(rows, index - 1, postStartLocation, postEndLocation);
      MatchedExtend(rows, index - 1, postStartLocation, postEndLocation);
    } else {
      assert EndedRuns(rows, 0) == [];
    }
  }

  /** The step reports extend what the scan has reported by the journeys it closes. */
  lemma StepReportsExtend(rows: seq<Row>, index: nat, postStartLocation: string, postEndLocation: string)
    requires index < |rows|
    ensures MatchedAfter(rows, index, postStartLocation, postEndLocation) + StepReports(rows, index, postStartLocation, postEndLocation)
         == MatchedAfter(rows, index + 1, postStartLocation, postEndLocation)
  {
    var closedBefore :=
      if index > 0 && EndsJourney(rows, index - 1)
      then CheckAddNewMapLocation(rows[index - 1], StartText(rows, JourneyStart(rows, index - 1)), postStartLocation, postEndLocation)
      else [];
    var closedHere :=
      if index == |rows| - 1
      then CheckAddNewMapLocation(rows[index], StartText(rows, JourneyStart(rows, index)), postStartLocation, postEndLocation)
      else [];
    var before := MatchedAfter(rows, index, postStartLocation, postEndLocation);
    var now := Matched(rows, index, postStartLocation, postEndLocation);
    ClosedBeforeCompletes(rows, index, postStartLocation, postEndLocation);
    if index == |rows| - 1 {
      MatchedExtend(rows, index, postStartLocation, postEndLocation);
    }
    assert now + closedHere == MatchedAfter(rows, index + 1, postStartLocation, postEndLocation);
    assert before + (closedBefore + closedHere) == (before + closedBefore) + closedHere;
  }

  /** The callbacks received over a list of journeys are nonempty exactly when one of them matches the POST. */
  lemma {:induction false} MatchedOfNonEmpty(rows: seq<Row>, runs: seq<Run>, postStartLocation: string, postEndLocation: string)
    requires RunsWithin(runs, |rows|)
    ensures |MatchedOf(rows, runs, postStartLocation, postEndLocation)| > 0
       <==> exists k :: 0 <= k < |runs| && RunMatches(rows, runs[k], postStartLocation, postEndLocation)
  {
    if runs != [] {
      var front := runs[..|runs| - 1];
      var run := runs[|runs| - 1];
      MatchedOfNonEmpty(rows, front, postStartLocation, postEndLocation);
      if exists k :: 0 <= k < |runs| && RunMatches(rows, runs[k], postStartLocation, postEndLocation) {
        var k :| 0 <= k < |runs| && RunMatches(rows, runs[k], postStartLocation, postEndLocation);
        if k < |front| {
          assert front[k] == runs[k];
        }
      }
      if exists k :: 0 <= k < |front| && RunMatches(rows, front[k], postStartLocation, postEndLocation) {
        var k :| 0 <= k < |front| && RunMatches(rows, front[k], postStartLocation, postEndLocation);
        assert runs[k] == front[k];
      }
    }
  }

  /**
   * Over a full scan, the match callback fires exactly when some journey (a
   * maximal run of rows sharing a JourneyID) starts at the posted start
   * location and ends at the posted end location.
   */
  lemma MatchedIffSomeJourneyMatches(rows: seq<Row>, postStartLocation: string, postEndLocation: string)
    ensures var runs := RunsOf(Ids(rows), |rows|);
      && MaximalRuns(Ids(rows), |rows|, runs)
      && RunsWithin(runs, |rows|)
      && (|Matched(rows, |rows|, postStartLocation, postEndLocation)| > 0
          <==> exists k :: 0 <= k < |runs| && RunMatches(rows, runs[k], postStartLocation, postEndLocation))
  {
    EndedRunsAreRuns(rows);
    EndedRunsMaximal(rows);
    MatchedOfNonEmpty(rows, EndedRuns(rows, |rows|), postStartLocation, postEndLocation);
  }
}

=== FILE: journey_runs.dfy ===
/**
 * The rows of a journey query, in the order the database returns them, and
 * their grouping into journeys: a journey is a maximal run of consecutive
 * rows sharing a JourneyID. Both scripts/database.js (building the route menu) and
 * php/require/_getJourneyFromMapLocations.php (matching a posted route) walk
 * the rows this way, taking a journey's start from its first row and its end
 * from its last.
 */
module JourneyRuns {
  import opened Common

  /** One row of the journey / map-location join; `name` is missing when the column is null. */
  datatype Row = Row(journeyId: int, name: Option<string>, coordinates: string, journeyType: string)

  /** What a caller passes as the current journey: a JourneyID, or (as the scan does) a whole row. */
  datatype JourneyValue = JourneyId(id: int) | Record(row: Row)

  /** The loose `!=` of JavaScript and PHP between the current journey and a JourneyID: a row never equals a number. */
  predicate LooselyDiffers(currentJourney: JourneyValue, nextJourney: int) {
    currentJourney.Record? || currentJourney.id != nextJourney
  }

  /**
   * checkUpdateCurrentJourney: the next JourneyID when it differs from the
   * current journey, else the current journey; either way the next JourneyID.
   */
  function CheckUpdateCurrentJourney(currentJourney: JourneyValue, nextJourney: int): (journey: JourneyValue)
    ensures LooselyDiffers(currentJourney, nextJourney) ==> journey == JourneyId(nextJourney)
    ensures !LooselyDiffers(currentJourney, nextJourney) ==> journey == currentJourney
    ensures journey == JourneyId(nextJourney)
  {
    if LooselyDiffers(currentJourney, nextJourney) then JourneyId(nextJourney) else currentJourney
  }

  /** The first and last row index of one journey. */
  datatype Run = Run(first: nat, last: nat)

  function Ids(rows: seq<Row>): (ids: seq<int>)
    ensures |ids| == |rows|
    ensures forall i :: 0 <= i < |rows| ==> ids[i] == rows[i].journeyId
  {
    seq(|rows|, i requires 0 <= i < |rows| => rows[i].journeyId)
  }

  /**
   * The journeys among the first `n` rows, in row order: a row with the same
   * JourneyID as the row before it extends the last journey, any other row
   * opens a new one.
   */
  function RunsOf(ids: seq<int>, n: nat): (runs: seq<Run>)
    requires n <= |ids|
    ensures n == 0 <==> runs == []
    ensures n > 0 ==> runs[|runs| - 1].last == n - 1
  {
    if n == 0 then []
    else if n == 1 then [Run(0, 0)]
    else
      var runs := RunsOf(ids, n - 1);
      if ids[n - 1] == ids[n - 2] then runs[..|runs| - 1] + [Run(runs[|runs| - 1].first, n - 1)]
      else runs + [Run(n - 1, n - 1)]
  }

  /** `runs` are non-empty, consecutive and cover rows 0 .. n-1 in order. */
  ghost predicate RunsTile(n: nat, runs: seq<Run>) {
    && (n == 0 <==> runs == [])
    && (n > 0 ==> runs[0].first == 0 && runs[|runs| - 1].last == n - 1)
    && (forall k :: 0 <= k < |runs| ==> runs[k].first <= runs[k].last < n)
    && (forall k :: 0 <= k < |runs| - 1 ==> runs[k + 1].first == runs[k].last + 1)
  }

  /** The rows of a run share their JourneyID. */
  ghost predicate RunsConstant(ids: seq<int>, n: nat, runs: seq<Run>)
    requires n <= |ids| && RunsTile(n, runs)
  {
    forall k, i :: 0 <= k < |runs| && runs[k].first <= i <= runs[k].last ==> ids[i] == ids[runs[k].first]
  }

  /** Neighbouring runs have different JourneyIDs. */
  ghost predicate RunsSeparated(ids: seq<int>, n: nat, runs: seq<Run>)
    requires n <= |ids| && RunsTile(n, runs)
  {
    forall k :: 0 <= k < |runs| - 1 ==> ids[runs[k].last] != ids[runs[k + 1].first]
  }

  /** `runs` splits rows 0 .. n-1 into maximal runs of equal JourneyID. */
  ghost predicate MaximalRuns(ids: seq<int>, n: nat, runs: seq<Run>)
    requires n <= |ids|
  {
    RunsTile(n, runs) && RunsConstant(ids, n, runs) && RunsSeparated(ids, n, runs)
  }

  lemma {:induction false} RunsOfTile(ids: seq<int>, n: nat)
    requires n <= |ids|
    ensures RunsTile(n, RunsOf(ids, n))
  {
    if n > 1 {
      RunsOfTile(ids, n - 1);
      var prev := RunsOf(ids, n - 1);
      if ids[n - 1] == ids[n - 2] {
        ExtendedRunTile(n, prev);
      } else {
        NewRunTile(n, prev);
      }
    }
  }

  lemma ExtendedRunTile(n: nat, prev: seq<Run>)
    requires 1 < n && RunsTile(n - 1, prev)
    ensures RunsTile(n, prev[..|prev| - 1] + [Run(prev[|prev| - 1].first, n - 1)])
  {
    var m := |prev| - 1;
    var runs := prev[..m] + [Run(prev[m].first, n - 1)];
    assert forall k :: 0 <= k < m ==> runs[k] == prev[k];
  }

  lemma NewRunTile(n: nat, prev: seq<Run>)
    requires 1 < n && RunsTile(n - 1, prev)
    ensures RunsTile(n, prev + [Run(n - 1, n - 1)])
  {
    var runs := prev + [Run(n - 1, n - 1)];
    assert forall k :: 0 <= k < |prev| ==> runs[k] == prev[k];
  }

  lemma {:induction false} RunsOfConstant(ids: seq<int>, n: nat)
    requires n <= |ids|
    ensures RunsTile(n, RunsOf(ids, n))
    ensures RunsConstant(ids, n, RunsOf(ids, n))
  {
    RunsOfTile(ids, n);
    if n > 1 {
      RunsOfConstant(ids, n - 1);
      var prev := RunsOf(ids, n - 1);
      var m := |prev| - 1;
      if ids[n - 1] == ids[n - 2] {
        ExtendedRunConstant(ids, n, prev, RunsOf(ids, n));
      } else {
        NewRunConstant(ids, n, prev, RunsOf(ids, n));
      }
    }
  }

  lemma ExtendedRunConstant(ids: seq<int>, n: nat, prev: seq<Run>, runs: seq<Run>)
    requires 1 < n <= |ids| && ids[n - 1] == ids[n - 2]
    requires RunsTile(n - 1, prev) && RunsConstant(ids, n - 1, prev)
    requires runs == prev[..|prev| - 1] + [Run(prev[|prev| - 1].first, n - 1)]
    requires RunsTile(n, runs)
    ensures RunsConstant(ids, n, runs)
  {
    var m := |prev| - 1;
    forall k, i | 0 <= k < |runs| && runs[k].first <= i <= runs[k].last
      ensures ids[i] == ids[runs[k].first]
    {
      if k < m {
        assert runs[k] == prev[k];
      } else if i < n - 1 {
        assert prev[m].first <= i <= prev[m].last;
      } else {
        assert ids[n - 2] == ids[prev[m].first];
      }
    }
  }

  lemma NewRunConstant(ids: seq<int>, n: nat, prev: seq<Run>, runs: seq<Run>)
    requires 1 < n <= |ids|
    requires RunsTile(n - 1, prev) && RunsConstant(ids, n - 1, prev)
    requires runs == prev + [Run(n - 1, n - 1)]
    requires RunsTile(n, runs)
    ensures RunsConstant(ids, n, runs)
  {
    forall k, i | 0 <= k < |runs| && runs[k].first <= i <= runs[k].last
      ensures ids[i] == ids[runs[k].first]
    {
      if k < |prev| {
        assert runs[k] == prev[k];
      }
    }
  }

  lemma {:induction false} RunsOfSeparated(ids: seq<int>, n: nat)
    requires n <= |ids|
    ensures RunsTile(n, RunsOf(ids, n))
    ensures RunsSeparated(ids, n, RunsOf(ids, n))
  {
    RunsOfTile(ids, n);
    if n > 1 {
      RunsOfSeparated(ids, n - 1);
      var prev := RunsOf(ids, n - 1);
      var runs := RunsOf(ids, n);
      var m := |prev| - 1;
      if ids[n - 1] == ids[n - 2] {
        assert runs == prev[..m] + [Run(prev[m].first, n - 1)];
        forall k | 0 <= k < |runs| - 1
          ensures ids[runs[k].last] != ids[runs[k + 1].first]
        {
          assert runs[k] == prev[k];
          assert runs[k + 1].first == prev[k + 1].first;
        }
      } else {
        assert runs == prev + [Run(n - 1, n - 1)];
        forall k | 0 <= k < |runs| - 1
          ensures ids[runs[k].last] != ids[runs[k + 1].first]
        {
          assert runs[k] == prev[k];
          if k < m {
            assert runs[k + 1] == prev[k + 1];
          }
        }
      }
    }
  }

  /** The grouping of the scans is exactly the split into maximal runs of equal JourneyID. */
  lemma RunsOfMaximal(ids: seq<int>, n: nat)
    requires n <= |ids|
    ensures MaximalRuns(ids, n, RunsOf(ids, n))
  {
    RunsOfConstant(ids, n);
    RunsOfSeparated(ids, n);
  }

  /** The first row of the journey that row `k` belongs to: the walk back to where the JourneyID last changed. */
  function JourneyStart(rows: seq<Row>, k: nat): (first: nat)
    requires k < |rows|
    ensures first <= k
  {
    if k == 0 || rows[k].journeyId != rows[k - 1].journeyId then k else JourneyStart(rows, k - 1)
  }

  /** Row `k` is the last of its journey: the last row, or one followed by another JourneyID. */
  predicate EndsJourney(rows: seq<Row>, k: nat)
    requires k < |rows|
  {
    k == |rows| - 1 || rows[k].journeyId != rows[k + 1].journeyId
  }

  /**
   * The journeys a walk over the rows closes among its first `m` rows, as
   * the scans of both scripts find them: a journey is closed at its last
   * row and started at the row where the JourneyID last changed.
   */
  function EndedRuns(rows: seq<Row>, m: nat): seq<Run>
    requires m <= |rows|
  {
    if m == 0 then []
    else EndedRuns(rows, m - 1) + if EndsJourney(rows, m - 1) then [Run(JourneyStart(rows, m - 1), m - 1)] else []
  }

  predicate RunsWithin(runs: seq<Run>, n: nat) {
    forall k :: 0 <= k < |runs| ==> runs[k].first <= runs[k].last < n
  }

  lemma {:induction false} EndedRunsWithin(rows: seq<Row>, m: nat)
    requires m <= |rows|
    ensures RunsWithin(EndedRuns(rows, m), m)
  {
    if m > 0 {
      EndedRunsWithin(rows, m - 1);
    }
  }

  /** The journeys closed before row `n`: all runs of RunsOf but the last. */
  function Closed(ids: seq<int>, n: nat): seq<Run>
    requires 0 < n <= |ids|
  {
    var runs := RunsOf(ids, n);
    runs[..|runs| - 1]
  }

  /**
   * After `m` rows, the journeys the walk has closed are the runs of RunsOf
   * but the last, and the current journey starts where that last run does.
   */
  lemma {:induction false} EndedRunsFollowRuns(rows: seq<Row>, m: nat)
    requires 0 < m <= |rows|
    ensures var runs := RunsOf(Ids(rows), m);
      && EndedRuns(rows, m - 1) == Closed(Ids(rows), m)
      && JourneyStart(rows, m - 1) == runs[|runs| - 1].first
  {
    if m > 1 {
      var ids := Ids(rows);
      EndedRunsFollowRuns(rows, m - 1);
      var prev := RunsOf(ids, m - 1);
      if ids[m - 1] == ids[m - 2] {
        assert EndedRuns(rows, m - 1) == EndedRuns(rows, m - 2);
      } else {
        assert prev == Closed(ids, m - 1) + [prev[|prev| - 1]];
      }
    }
  }

  /** The walk closes exactly the runs of RunsOf. */
  lemma EndedRunsAreRuns(rows: seq<Row>)
    ensures EndedRuns(rows, |rows|) == RunsOf(Ids(rows), |rows|)
  {
    if |rows| > 0 {
      var ids := Ids(rows);
      EndedRunsFollowRuns(rows, |rows|);
      var runs := RunsOf(ids, |rows|);
      assert runs == Closed(ids, |rows|) + [runs[|runs| - 1]];
    }
  }

  /** The walk closes the maximal runs of equal JourneyID, in row order, and nothing else. */
  lemma EndedRunsMaximal(rows: seq<Row>)
    ensures MaximalRuns(Ids(rows), |rows|, EndedRuns(rows, |rows|))
    ensures RunsWithin(EndedRuns(rows, |rows|), |rows|)
  {
    EndedRunsAreRuns(rows);
    RunsOfMaximal(Ids(rows), |rows|);
  }
}

=== FILE: main_script.dfy ===
/**
 * `String.prototype.capitalize` of scripts/main.js: a global regular
 * expression replace of `(?:^|\s)\S` by the upper-cased match, which
 * capitalises the first character of every word.
 */
module MainScript {

  /** The characters JavaScript's `\s` class matches. */
  predicate IsWhitespace(c: char) {
    c == '\t' || c == '\n' || c == '\U{000B}' || c == '\U{000C}' || c == '\r' || c == ' '
    || c == '\U{00A0}' || c == '\U{1680}' || ('\U{2000}' <= c <= '\U{200A}')
    || c == '\U{2028}' || c == '\U{2029}' || c == '\U{202F}' || c == '\U{205F}'
    || c == '\U{3000}' || c == '\U{FEFF}'
  }

  /** `toUpperCase` on one character, for the ASCII letters. */
  function ToUpper(c: char): (u: char)
    ensures 'a' <= c <= 'z' ==> 'A' <= u <= 'Z' && u as int == c as int - 32
    ensures !('a' <= c <= 'z') ==> u == c
  {
    if 'a' <= c <= 'z' then (c as int - 32) as char else c
  }

  /** Upper-casing is idempotent and leaves whitespace alone. */
  lemma ToUpperIdempotent(c: char)
    ensures ToUpper(ToUpper(c)) == ToUpper(c)
    ensures IsWhitespace(c) ==> ToUpper(c) == c
  {
  }

  /**
   * The replacement from search position `p` on. At the start of the text the
   * alternative `^` lets a single non-space character match; anywhere a match
   * can be a whitespace character followed by a non-space one. The whole match
   * is upper-cased, and the search resumes after it, or one character on when
   * nothing matches at `p`.
   */
  function ReplaceFrom(s: string, p: nat): (r: string)
    requires p <= |s|
    ensures |r| == |s| - p
    decreases |s| - p
  {
    if p == |s| then ""
    else if p == 0 && !IsWhitespace(s[0]) then [ToUpper(s[0])] + ReplaceFrom(s, 1)
    else if IsWhitespace(s[p]) && p + 1 < |s| && !IsWhitespace(s[p + 1]) then
      [ToUpper(s[p]), ToUpper(s[p + 1])] + ReplaceFrom(s, p + 2)
    else [s[p]] + ReplaceFrom(s, p + 1)
  }

  /** `s.capitalize()`. */
  function Capitalize(s: string): (r: string)
    ensures |r| == |s|
  {
    ReplaceFrom(s, 0)
  }

  /** The character at `i` starts a word: it is not whitespace, and it is first or follows whitespace. */
  predicate StartsWord(s: string, i: nat)
    requires i < |s|
  {
    !IsWhitespace(s[i]) && (i == 0 || IsWhitespace(s[i - 1]))
  }

  /**
   * From a search position that is not inside a match, character `i` of the
   * replacement is upper-cased exactly when it starts a word, and kept otherwise.
   */
  lemma {:induction false} ReplaceFromAt(s: string, p: nat, i: nat)
    requires p <= i < |s|
    requires 0 < p ==> !StartsWord(s, p)
    ensures ReplaceFrom(s, p)[i - p] == if StartsWord(s, i) then ToUpper(s[i]) else s[i]
    decreases |s| - p
  {
    var r := ReplaceFrom(s, p);
    if p == 0 && !IsWhitespace(s[0]) {
      if i > 0 {
        assert r[i - p] == ReplaceFrom(s, 1)[i - 1];
        ReplaceFromAt(s, 1, i);
      }
    } else if IsWhitespace(s[p]) && p + 1 < |s| && !IsWhitespace(s[p + 1]) {
      if i >= p + 2 {
        assert r[i - p] == ReplaceFrom(s, p + 2)[i - p - 2];
        ReplaceFromAt(s, p + 2, i);
      } else {
        ToUpperIdempotent(s[p]);
      }
    } else if i > p {
      assert r[i - p] == ReplaceFrom(s, p + 1)[i - p - 1];
      ReplaceFromAt(s, p + 1, i);
    }
  }

  /** Each character of `s.capitalize()`: upper-cased iff it starts a word, unchanged otherwise. */
  lemma CapitalizeAt(s: string, i: nat)
    requires i < |s|
    ensures Capitalize(s)[i] == if StartsWord(s, i) then ToUpper(s[i]) else s[i]
  {
    ReplaceFromAt(s, 0, i);
  }

  /** Whitespace stays where it was: the word boundaries of the result are those of the input. */
  lemma CapitalizeKeepsWhitespace(s: string, i: nat)
    requires i < |s|
    ensures IsWhitespace(Capitalize(s)[i]) <==> IsWhitespace(s[i])
    ensures IsWhitespace(s[i]) ==> Capitalize(s)[i] == s[i]
  {
    CapitalizeAt(s, i);
  }

  /** Capitalising twice is capitalising once. */
  lemma CapitalizeIdempotent(s: string)
    ensures Capitalize(Capitalize(s)) == Capitalize(s)
  {
    var t := Capitalize(s);
    forall i | 0 <= i < |s|
      ensures Capitalize(t)[i] == t[i]
    {
      CapitalizeKeepsWhitespace(s, i);
      if i > 0 {
        CapitalizeKeepsWhitespace(s, i - 1);
      }
      CapitalizeAt(t, i);
      CapitalizeAt(s, i);
      ToUpperIdempotent(s[i]);
    }
  }

  /** A text without lower-case ASCII letters, or an empty one, is its own capitalisation. */
  lemma CapitalizeNoLower(s: string)
    requires forall i :: 0 <= i < |s| ==> !('a' <= s[i] <= 'z')
    ensures Capitalize(s) == s
  {
    forall i | 0 <= i < |s|
      ensures Capitalize(s)[i] == s[i]
    {
      CapitalizeAt(s, i);
    }
  }

  /** Capitalising turns no character into a semicolon, so a semicolon-free text stays semicolon-free. */
  lemma CapitalizeKeepsSemicolonFree(s: string)
    requires ';' !in s
    ensures ';' !in Capitalize(s)
  {
    forall i | 0 <= i < |s|
      ensures Capitalize(s)[i] != ';'
    {
      CapitalizeAt(s, i);
    }
  }
}

=== FILE: menu.dfy ===
/**
 * The menu of scripts/menu.js: the option groups of the route and model
 * drop-down lists and the three list operations on them, the validation of
 * the submitted form behind the `formErrorStatus` flag, the URL and route
 * field checks, the ETA label and the reset of a running simulation.
 */
module Menu {
  import opened Common
  import opened ModelAnimation

  /** A drop-down option: its value attribute and its displayed text. */
  datatype MenuOption = MenuOption(value: string, text: string)

  /** Whether some option of `options` has the value `value`. */
  predicate HasValue(options: seq<MenuOption>, value: string) {
    exists k :: 0 <= k < |options| && options[k].value == value
  }

  /** No two options share a value. */
  predicate DistinctValues(options: seq<MenuOption>) {
    forall i, j :: 0 <= i < j < |options| ==> options[i].value != options[j].value
  }

  /** The values of `options`, in order. */
  function Values(options: seq<MenuOption>): (values: seq<string>)
    ensures |values| == |options|
    ensures forall k :: 0 <= k < |options| ==> values[k] == options[k].value
  {
    seq(|options|, k requires 0 <= k < |options| => options[k].value)
  }

  /** The group after adding an option: prepended, unless its value is already there. */
  function AddedOptions(options: seq<MenuOption>, value: string, text: string): seq<MenuOption> {
    if HasValue(options, value) then options else [MenuOption(value, text)] + options
  }

  /** How many options survive a cut to `maxItems` entries. */
  function KeptCount(count: nat, maxItems: int): (k: nat)
    ensures k <= count
    ensures maxItems >= 0 ==> k <= maxItems
    ensures maxItems >= 0 ==> k == count || k == maxItems
    ensures maxItems <= 0 ==> k == 0
  {
    if maxItems <= 0 then 0 else if count < maxItems then count else maxItems
  }

  /** The option at `position` after it has been moved up to `at`. */
  function PartlyMoved(options: seq<MenuOption>, position: nat, at: nat): seq<MenuOption>
    requires at <= position < |options|
  {
    options[..at] + [options[position]] + options[at..position] + options[position + 1..]
  }

  /** Moving the option at `at` before its predecessor moves it one place further up. */
  lemma PartlyMovedStep(options: seq<MenuOption>, position: nat, at: nat)
    requires 0 < at <= position < |options|
    ensures var s := PartlyMoved(options, position, at);
      s[at - 1 := s[at]][at := s[at - 1]] == PartlyMoved(options, position, at - 1)
  {
    var s := PartlyMoved(options, position, at);
    var t := PartlyMoved(options, position, at - 1);
    assert |s| == |t| == |options|;
    forall k | 0 <= k < |s|
      ensures s[at - 1 := s[at]][at := s[at - 1]][k] == t[k]
    {
      if k < at - 1 {
      } else if k == at - 1 {
      } else if k == at {
      } else if k <= position {
      } else {
      }
    }
  }

  /** The group with the option at `position` moved to the top, the others keeping their order. */
  function MovedToTop(options: seq<MenuOption>, position: nat): seq<MenuOption>
    requires position < |options|
  {
    [options[position]] + options[..position] + options[position + 1..]
  }

  /** After adding, the value is present, and the group either grew by the new option in front or did not change. */
  lemma AddedOptionsContents(options: seq<MenuOption>, value: string, text: string)
    ensures HasValue(AddedOptions(options, value, text), value)
    ensures HasValue(options, value) <==> AddedOptions(options, value, text) == options
    ensures !HasValue(options, value) <==> AddedOptions(options, value, text) == [MenuOption(value, text)] + options
  {
    var r := AddedOptions(options, value, text);
    if !HasValue(options, value) {
      assert r[0].value == value;
      assert |r| != |options|;
    }
  }

  /** Adding the same option twice is adding it once. */
  lemma AddedOptionsIdempotent(options: seq<MenuOption>, value: string, text: string)
    ensures AddedOptions(AddedOptions(options, value, text), value, text) == AddedOptions(options, value, text)
  {
    AddedOptionsContents(options, value, text);
  }

  /** Adding never makes two options share a value. */
  lemma AddedOptionsDistinct(options: seq<MenuOption>, value: string, text: string)
    requires DistinctValues(options)
    ensures DistinctValues(AddedOptions(options, value, text))
  {
    var r := AddedOptions(options, value, text);
    if !HasValue(options, value) {
      forall i, j | 0 <= i < j < |r|
        ensures r[i].value != r[j].value
      {
        if i == 0 {
          assert r[j] == options[j - 1];
        } else {
          assert r[i] == options[i - 1] && r[j] == options[j - 1];
        }
      }
    }
  }

  /**
   * A group kept to `maxItems` entries stays within it after an addition
   * followed by the cut, and the value just added survives the cut.
   */
  lemma AddThenCutKeepsNewest(options: seq<MenuOption>, value: string, text: string, maxItems: int)
    requires 1 <= maxItems && |options| <= maxItems
    ensures var added := AddedOptions(options, value, text);
      var cut := added[..KeptCount(|added|, maxItems)];
      |cut| <= maxItems && HasValue(cut, value)
  {
    var added := AddedOptions(options, value, text);
    AddedOptionsContents(options, value, text);
    var cut := added[..KeptCount(|added|, maxItems)];
    if HasValue(options, value) {
      assert cut == options;
    } else {
      assert cut[0].value == value;
    }
  }

  /** Moving an option to the top only reorders the group. */
  lemma MovedToTopPermutes(options: seq<MenuOption>, position: nat)
    requires position < |options|
    ensures multiset(MovedToTop(options, position)) == multiset(options)
    ensures MovedToTop(options, position)[0] == options[position]
  {
    calc {
      multiset(MovedToTop(options, position));
      multiset([options[position]]) + multiset(options[..position]) + multiset(options[position + 1..]);
      multiset(options[..position]) + multiset([options[position]]) + multiset(options[position + 1..]);
      { assert options == options[..position] + [options[position]] + options[position + 1..]; }
      multiset(options);
    }
  }

  /** The top option moves nowhere, and a moved option is at the top so a second move changes nothing. */
  lemma MovedToTopIdempotent(options: seq<MenuOption>, position: nat)
    requires position < |options|
    ensures MovedToTop(options, 0) == options
    ensures MovedToTop(MovedToTop(options, position), 0) == MovedToTop(options, position)
  {
    assert [options[0]] + options[1..] == options;
    var moved := MovedToTop(options, position);
    assert [moved[0]] + moved[1..] == moved;
  }

  /** Every other option keeps its order relative to the rest: removing the moved one from either list gives the same list. */
  lemma MovedToTopKeepsOthersInOrder(options: seq<MenuOption>, position: nat)
    requires position < |options|
    ensures MovedToTop(options, position)[1..] == options[..position] + options[position + 1..]
  {
  }

  /**
   * An option group, whose list of options the page changes in place. The
   * most recent entry is at the top.
   */
  class OptGroup {
    var options: seq<MenuOption>

    constructor (initial: seq<MenuOption>)
      ensures options == initial
    {
      options := initial;
    }

    /**
     * addToOptGroup: scan the children for the value, and prepend a new
     * option only when none has it.
     */
    method AddToOptGroup(optVal: string, optTxt: string)
      modifies this
      ensures options == AddedOptions(old(options), optVal, optTxt)
    {
      var optionAlreadyExists := false;
      var i := 0;
      while i < |options|
        invariant 0 <= i <= |options|
        invariant optionAlreadyExists <==> HasValue(options[..i], optVal)
      {
        if options[i].value == optVal {
          optionAlreadyExists := true;
        }
        assert options[..i + 1] == options[..i] + [options[i]];
        i := i + 1;
      }
      assert options[..i] == options;
      if !optionAlreadyExists {
        options := [MenuOption(optVal, optTxt)] + options;
      }
    }

    /**
     * removeOldCustomOptEntries: count the options in order; each one past
     * `maxCustomItems` is handed to the callback and removed. The callback's
     * arguments are returned, in the order it receives them.
     */
    method RemoveOldCustomOptEntries(maxCustomItems: int) returns (removed: seq<string>)
      modifies this
      ensures options == old(options)[..KeptCount(|old(options)|, maxCustomItems)]
      ensures removed == Values(old(options)[KeptCount(|old(options)|, maxCustomItems)..])
    {
      var children := options;
      var keep := KeptCount(|children|, maxCustomItems);
      var kept: seq<MenuOption> := [];
      removed := [];
      var optionCount := 0;
      while optionCount < |children|
        invariant 0 <= optionCount <= |children|
        invariant kept == children[..if optionCount < keep then optionCount else keep]
        invariant removed == Values(children[keep..if optionCount < keep then keep else optionCount])
      {
        var child := children[optionCount];
        optionCount := optionCount + 1;
        if optionCount > maxCustomItems {
          assert children[keep..optionCount] == children[keep..optionCount - 1] + [child];
          removed := removed + [child.value];
        } else {
          assert children[..optionCount] == children[..optionCount - 1] + [child];
          kept := kept + [child];
        }
      }
      options := kept;
    }

    /**
     * moveSelectedMenuItemToTop: when the selected option belongs to this
     * group (`selected` is its position here), move it before its
     * predecessor as many times as it has predecessors; otherwise do nothing.
     */
    method MoveSelectedMenuItemToTop(selected: Option<nat>)
      requires selected.Some? ==> selected.value < |options|
      modifies this
      ensures selected.None? ==> options == old(options)
      ensures selected.Some? ==> options == MovedToTop(old(options), selected.value)
    {
      if selected.Some? {
        ghost var original := options;
        var optionPosition := selected.value;
        var at := optionPosition;
        var i := 0;
        while i < optionPosition
          invariant 0 <= i <= optionPosition && at == optionPosition - i
          invariant options == PartlyMoved(original, optionPosition, at)
        {
          var previous := options[at - 1];
          PartlyMovedStep(original, optionPosition, at);
          options := options[at - 1 := options[at]][at := previous];
          at := at - 1;
          i := i + 1;
        }
        assert original[..0] == [] && original[0..optionPosition] == original[..optionPosition];
      }
    }
  }

  /** The option group a record of the given type goes to, by element id; any other type has none. */
  function DetermineMenuItemOptGroup(recordType: string, menuSection: string): (group: Option<string>)
    ensures group.Some? <==> recordType == "Builtin" || recordType == "Custom"
    ensures recordType == "Builtin" ==> group == Some(menuSection + "BuiltInOptGrp")
    ensures recordType == "Custom" ==> group == Some(menuSection + "RecentCustomOptGrp")
  {
    if recordType == "Builtin" then Some(menuSection + "BuiltInOptGrp")
    else if recordType == "Custom" then Some(menuSection + "RecentCustomOptGrp")
    else None
  }

  /** The two groups of a section are different elements. */
  lemma OptGroupsDiffer(menuSection: string)
    ensures DetermineMenuItemOptGroup("Builtin", menuSection) != DetermineMenuItemOptGroup("Custom", menuSection)
  {
    var b := menuSection + "BuiltInOptGrp";
    var c := menuSection + "RecentCustomOptGrp";
    assert b[|menuSection|] == 'B' && c[|menuSection|] == 'R';
  }

  /** The text shown beside the ETA slider for a value in minutes. */
  function EtaLabel(minutes: nat): (shown: string)
    ensures minutes == 0 <==> shown == "Real Time"
    ensures minutes == 1 ==> shown == "1 min"
    ensures minutes >= 2 ==> shown == NatToString(minutes) + " mins"
  {
    var digits := NatToString(minutes);
    assert (digits + " min")[0] == (digits + " mins")[0] == digits[0] != "Real Time"[0];
    if minutes == 0 then "Real Time"
    else if minutes == 1 then digits + " min"
    else digits + " mins"
  }

  /** The label starts with the number of minutes, and distinct values show distinct labels. */
  lemma EtaLabelInjective(m: nat, n: nat)
    requires EtaLabel(m) == EtaLabel(n)
    ensures m == n
  {
    if m != 0 && n != 0 {
      var sm := NatToString(m);
      var sn := NatToString(n);
      // The digits end where the first space is.
      assert EtaLabel(m)[..|sm|] == sm && EtaLabel(m)[|sm|] == ' ';
      assert EtaLabel(n)[..|sn|] == sn && EtaLabel(n)[|sn|] == ' ';
      if |sm| < |sn| {
        assert false;
      } else if |sn| < |sm| {
        assert false;
      }
      NatToStringInjective(m, n);
    }
  }

  /** Whether `c` ends a line for a regular expression's `.`, which matches any other character. */
  predicate IsLineTerminator(c: char) {
    c == '\n' || c == '\r' || c == '\U{2028}' || c == '\U{2029}'
  }

  /** Whether `s` starts with the literal text `prefix`. */
  predicate StartsWith(s: string, prefix: string) {
    |prefix| <= |s| && s[..|prefix|] == prefix
  }

  /**
   * checkStringEndText(str, endTxt): whether the regular expression
   * `endTxt + "$"` matches. The calls pass a dot and then letters, so the
   * dot matches any character but a line terminator and the letters match
   * themselves, at the very end of `str`.
   */
  function CheckStringEndText(str: string, endTxt: string): (matches: bool)
    requires |endTxt| >= 1 && endTxt[0] == '.'
    requires forall k :: 1 <= k < |endTxt| ==> 'a' <= endTxt[k] <= 'z'
    ensures matches ==> EndsWith(str, endTxt[1..])
  {
    |endTxt| <= |str|
    && !IsLineTerminator(str[|str| - |endTxt|])
    && str[|str| - |endTxt| + 1..] == endTxt[1..]
  }

  /** Every URL that really ends with the extension passes; but so does any other character in place of the dot. */
  lemma CheckStringEndTextDot(prefix: string, c: char, ext: string)
    requires forall k :: 0 <= k < |ext| ==> 'a' <= ext[k] <= 'z'
    requires !IsLineTerminator(c)
    ensures CheckStringEndText(prefix + "." + ext, "." + ext)
    ensures CheckStringEndText(prefix + [c] + ext, "." + ext)
  {
    var s := prefix + [c] + ext;
    assert s[|s| - |ext| - 1] == c;
    assert s[|s| - |ext|..] == ext;
    var t := prefix + "." + ext;
    assert t[|t| - |ext| - 1] == '.';
    assert t[|t| - |ext|..] == ext;
  }

  /** The URL ends with none of the accepted extensions (as the patterns `.kmz$`, `.dae$`, `.zip$` see it). */
  function InvalidURLFileExtension(url: string): (invalid: bool)
    ensures !EndsWith(url, "kmz") && !EndsWith(url, "dae") && !EndsWith(url, "zip") ==> invalid
  {
    !CheckStringEndText(url, ".kmz") && !CheckStringEndText(url, ".dae") && !CheckStringEndText(url, ".zip")
  }

  /** The URL ending "Xkmz", with no dot, is accepted. */
  lemma DotMatchesAnyCharacter()
    ensures !InvalidURLFileExtension("http://host/modelXkmz")
  {
    CheckStringEndTextDot("http://host/model", 'X', "kmz");
    assert "http://host/model" + ['X'] + "kmz" == "http://host/modelXkmz";
  }

  /** The pattern `^((http)|(https)|(ftp)):\/\/`. */
  predicate HasUrlScheme(url: string) {
    StartsWith(url, "http://") || StartsWith(url, "https://") || StartsWith(url, "ftp://")
  }

  /** The values of the menu form's fields. */
  datatype FormValues = FormValues(
    route: string, model: string, travelMethod: string,
    customRouteFrom: string, customRouteTo: string, kmzURL: string)

  /** The route fields are in error when either is empty or, both being filled, either holds a semicolon. */
  predicate CustomRouteError(from: string, to: string) {
    |from| == 0 || |to| == 0 || ';' in from || ';' in to
  }

  predicate CustomModelURLError(url: string) {
    !HasUrlScheme(url) || InvalidURLFileExtension(url)
  }

  /** The drop-down `ddlId` with the value `value` fails validation. */
  predicate SelectionError(ddlId: string, value: string, form: FormValues) {
    || value == "select"
    || (value == "custom" && ddlId == "route" && CustomRouteError(form.customRouteFrom, form.customRouteTo))
    || (value == "custom" && ddlId == "model" && CustomModelURLError(form.kmzURL))
  }

  /** Whether some check of a submission raises an error. */
  predicate FormHasError(form: FormValues) {
    || SelectionError("route", form.route, form)
    || SelectionError("model", form.model, form)
    || SelectionError("method", form.travelMethod, form)
  }

  /** An accepted custom route has two non-empty fields free of semicolons. */
  lemma AcceptedCustomRoute(form: FormValues)
    requires form.route == "custom" && !FormHasError(form)
    ensures |form.customRouteFrom| > 0 && |form.customRouteTo| > 0
    ensures ';' !in form.customRouteFrom && ';' !in form.customRouteTo
  {
  }

  /** The form validation, with the global error flag that each check may set. */
  class MenuForm {
    var formErrorStatus: bool

    constructor ()
      ensures !formErrorStatus
    {
      formErrorStatus := false;
    }

    method CheckValueIsSelect(value: string) returns (error: bool)
      modifies this
      ensures error <==> value == "select"
      ensures formErrorStatus == (old(formErrorStatus) || error)
    {
      error := false;
      if value == "select" {
        error := true;
        formErrorStatus := true;
      }
    }

    method CheckCustomRouteFieldsEmpty(from: string, to: string) returns (error: bool)
      modifies this
      ensures error <==> |from| == 0 || |to| == 0
      ensures formErrorStatus == (old(formErrorStatus) || error)
    {
      error := false;
      if |from| == 0 || |to| == 0 {
        error := true;
        formErrorStatus := true;
      }
    }

    method CheckCustomRouteValidChars(from: string, to: string) returns (error: bool)
      modifies this
      ensures error <==> ';' in from || ';' in to
      ensures formErrorStatus == (old(formErrorStatus) || error)
    {
      error := false;
      if ';' in from || ';' in to {
        error := true;
        formErrorStatus := true;
      }
    }

    /** The semicolon check runs only when neither field is empty. */
    method CheckCustomRoute(from: string, to: string)
      modifies this
      ensures formErrorStatus == (old(formErrorStatus) || CustomRouteError(from, to))
    {
      var error := CheckCustomRouteFieldsEmpty(from, to);
      if !error {
        error := CheckCustomRouteValidChars(from, to);
      }
    }

    method CheckCustomModelURL(url: string) returns (error: bool)
      modifies this
      ensures error <==> CustomModelURLError(url)
      ensures formErrorStatus == (old(formErrorStatus) || error)
    {
      error := false;
      if !HasUrlScheme(url) || InvalidURLFileExtension(url) {
        error := true;
        formErrorStatus := true;
      }
    }

    /** checkSelectedValue: the "select" check, then the custom checks of the route and model lists. */
    method CheckSelectedValue(ddlId: string, value: string, form: FormValues)
      modifies this
      ensures formErrorStatus == (old(formErrorStatus) || SelectionError(ddlId, value, form))
    {
      var _ := CheckValueIsSelect(value);
      if value == "custom" {
        if ddlId == "route" {
          CheckCustomRoute(form.customRouteFrom, form.customRouteTo);
        } else if ddlId == "model" {
          var _ := CheckCustomModelURL(form.kmzURL);
        }
      }
    }

    /**
     * submitForm: reset the flag, check the three lists, and start the
     * simulation only when no check raised an error.
     */
    method SubmitForm(form: FormValues) returns (start: bool)
      modifies this
      ensures formErrorStatus == FormHasError(form)
      ensures start <==> !FormHasError(form)
    {
      formErrorStatus := false;
      CheckSelectedValue("route", form.route, form);
      CheckSelectedValue("model", form.model, form);
      CheckSelectedValue("method", form.travelMethod, form);
      start := !formErrorStatus;
    }
  }

  /**
   * resetSimulation: a running simulation stops animating and keeps its
   * route, clock and listener; with no simulation there is nothing to do.
   */
  method ResetSimulation(simulator: ModelSimulator?)
    requires simulator != null ==> simulator.Valid()
    modifies if simulator != null then {simulator} else {}
    ensures simulator != null ==> simulator.Valid() && !simulator.doAnimation
    ensures simulator != null ==> simulator.SameButAnimationFlag()
  {
    if simulator != null {
      simulator.doAnimation := false;
    }
  }

  /**
   * A reset while the animation listener is attached and coordinates remain:
   * the next "frameend" detaches the listener and reports an interrupted run,
   * so the end-of-simulation tasks are skipped and the clock stays where it was.
   */
  method InterruptAnimation(simulator: ModelSimulator, atStartPos: bool) returns (event: FrameEvent)
    requires simulator.Valid() && simulator.listener == Animation && simulator.MoreCoordinatesToMoveAlong()
    modifies simulator
    ensures simulator.Valid()
    ensures event == Finished(false) && simulator.listener == NoListener && !simulator.doAnimation
    ensures simulator.geStepIndex == old(simulator.geStepIndex) && simulator.elapsedStepTime == old(simulator.elapsedStepTime)
    ensures simulator.totalTime == old(simulator.totalTime) && simulator.pathDetails == old(simulator.pathDetails)
  {
    ResetSimulation(simulator);
    event := simulator.FrameEnd(atStartPos);
  }
}

=== FILE: model_animation.dfy ===
/**
 * The route playback engine of scripts/modelAnimation.js.
 *
 * A `ModelSimulator` owns the route's path details, a speed multiplier and a
 * small clock (elapsed time in the current step, the step index, the total
 * simulated time) plus a camera cycle (a frame counter and the index of the
 * camera preset in use). The host calls the attached "frameend" listener once
 * per rendered frame; each animation frame adds 33 ms of simulated time scaled
 * by the speed, consumes every whole step that time covers, and places the
 * model a fraction of the way along the current step.
 *
 * Times are exact reals here. The geometry helpers of the host library
 * (heading, interpolation, distance) are opaque function values.
 */
module ModelAnimation {

  /** A coordinate (google.maps.LatLng). */
  datatype LatLng = LatLng(lat: real, lng: real)

  /**
   * One entry of `pathDetails`: a coordinate of the route, the index of its
   * step within its leg, and the distance (metres) and duration (seconds) from
   * it to the next coordinate of the same step.
   */
  datatype PathDetail = PathDetail(loc: LatLng, step: nat, distance: real, duration: real)

  /** A camera preset: heading and tilt in degrees, range in metres. */
  datatype Camera = Camera(heading: real, tilt: real, range: real)

  /** The geometry helpers (`ModelSimulator.geHelper`) the engine calls but does not define. */
  datatype GeHelpers = GeHelpers(
    getHeading: (LatLng, LatLng) -> real,
    interpolateLoc: (LatLng, LatLng, real) -> LatLng,
    distance: (LatLng, LatLng) -> real)

  /** Which "frameend" listener the simulator has attached to the host. */
  datatype Listener = NoListener | WaitForInitialView | Animation

  /** What one animation frame did to the model: moved it, or failed to find the step's next node. */
  datatype FrameMove =
    | Moved(loc: LatLng, heading: real, fraction: real, camera: Camera)
      // The catch-up loop reached the last path entry; reading the entry after it fails.
    | NoNextNode

  /** What one "frameend" notification did. */
  datatype FrameEvent =
    | NotListening
    | Waiting
    | Started(loc: LatLng, heading: real, camera: Camera)
    | Advanced(move: FrameMove)
      // The animation listener detached itself; `completedTasks` says whether the
      // end-of-simulation tasks ran.
    | Finished(completedTasks: bool)

  const MilliSecondsPerFrame: real := 33.0
  const MilliSecondsPerSecond: real := 1000.0
  const FramesPerCamera: nat := 400
  /** Frames to wait for the camera to reach the start of the route before animating anyway. */
  const MaxInitialViewDelay: nat := 150

  /** The presets `populateInitialCameras` adds, in order. */
  const InitialCameras: seq<Camera> := [
    Camera(200.0, 60.0, 300.0),
    Camera(-47.3872, 80.5524, 102.0),
    Camera(44.50891, 80.0, 664.0),
    Camera(20.0, 0.0, 200.0)
  ]

  /** Simulated seconds one frame adds to the clock at a given speed. */
  function FrameTime(speed: real): (t: real)
    ensures speed >= 0.0 ==> t >= 0.0
    ensures t * MilliSecondsPerSecond == MilliSecondsPerFrame * speed
  {
    MilliSecondsPerFrame * speed / MilliSecondsPerSecond
  }

  /** The speed multiplier for an entered ETA (minutes) and the route's required travel time (seconds). */
  function MovementSpeed(enteredTime: nat, requiredTravelTime: real): real {
    if enteredTime == 0 then 1.0 else requiredTravelTime / (enteredTime as real * 60.0)
  }

  /** At the speed for a non-zero ETA, the route's whole travel time plays back in exactly the ETA. */
  lemma MovementSpeedMeetsEta(enteredTime: nat, requiredTravelTime: real)
    ensures enteredTime == 0 ==> MovementSpeed(enteredTime, requiredTravelTime) == 1.0
    ensures enteredTime > 0 ==>
      MovementSpeed(enteredTime, requiredTravelTime) * (enteredTime as real * 60.0) == requiredTravelTime
    ensures requiredTravelTime >= 0.0 ==> MovementSpeed(enteredTime, requiredTravelTime) >= 0.0
  {
  }

  /** The speed shown for a step: its distance over its duration, or 0 for a step without duration. */
  function StepSpeed(stepDistance: real, stepDuration: real): (v: real)
    ensures stepDuration > 0.0 ==> v * stepDuration == stepDistance
    ensures stepDuration <= 0.0 ==> v == 0.0
  {
    if stepDuration > 0.0 then stepDistance / stepDuration else 0.0
  }

  /** Elapsed time below a positive duration is a fraction in [0, 1) of it. */
  lemma FractionBelowOne(elapsed: real, duration: real)
    requires 0.0 <= elapsed < duration
    ensures 0.0 <= elapsed / duration < 1.0
    ensures (elapsed / duration) * duration == elapsed
  {
  }

  /** The total duration of the path entries before index `i`. */
  function ElapsedBefore(path: seq<PathDetail>, i: nat): real
    requires i <= |path|
  {
    if i == 0 then 0.0 else ElapsedBefore(path, i - 1) + path[i - 1].duration
  }

  /** Appending entries does not change the duration of an existing prefix. */
  lemma {:induction false} ElapsedBeforeAppend(path: seq<PathDetail>, more: seq<PathDetail>, i: nat)
    requires i <= |path|
    ensures ElapsedBefore(path + more, i) == ElapsedBefore(path, i)
  {
    if i > 0 {
      ElapsedBeforeAppend(path, more, i - 1);
    }
  }

  /** With durations that are never negative, a longer prefix lasts at least as long. */
  lemma {:induction false} ElapsedBeforeMonotone(path: seq<PathDetail>, i: nat, j: nat)
    requires i <= j <= |path|
    requires forall k :: 0 <= k < |path| ==> path[k].duration >= 0.0
    ensures ElapsedBefore(path, i) <= ElapsedBefore(path, j)
    decreases j
  {
    if i < j {
      ElapsedBeforeMonotone(path, i, j - 1);
    }
  }

  /**
   * The clock after the catch-up loop of `adjustTimingIfNextStepEntered`: while
   * a next step exists and the elapsed time covers the current step's duration,
   * subtract that duration and move to the next step.
   */
  function CatchUp(path: seq<PathDetail>, index: nat, elapsed: real): (r: (nat, real))
    requires index < |path|
    ensures index <= r.0 < |path|
    decreases |path| - index
  {
    if index < |path| - 1 && elapsed >= path[index].duration
    then CatchUp(path, index + 1, elapsed - path[index].duration)
    else (index, elapsed)
  }

  /**
   * The catch-up loop stops within the path, never drifts (the time it removes
   * is exactly the duration of the steps it passes), consumed only steps the
   * elapsed time fully covered, and leaves a remainder below the current step's
   * duration unless it reached the last entry.
   */
  lemma {:induction false} CatchUpProperties(path: seq<PathDetail>, index: nat, elapsed: real)
    requires index < |path|
    ensures CatchUp(path, index, elapsed).1 + ElapsedBefore(path, CatchUp(path, index, elapsed).0)
         == elapsed + ElapsedBefore(path, index)
    ensures elapsed >= 0.0 ==> CatchUp(path, index, elapsed).1 >= 0.0
    ensures CatchUp(path, index, elapsed).0 < |path| - 1 ==>
              CatchUp(path, index, elapsed).1 < path[CatchUp(path, index, elapsed).0].duration
    ensures forall j :: index <= j < CatchUp(path, index, elapsed).0 ==>
              elapsed - (ElapsedBefore(path, j) - ElapsedBefore(path, index)) >= path[j].duration
    decreases |path| - index
  {
    if index < |path| - 1 && elapsed >= path[index].duration {
      CatchUpProperties(path, index + 1, elapsed - path[index].duration);
    }
  }

  /**
   * Catching up in two portions ends where catching up the sum ends: the
   * clock does not depend on how simulated time was sliced into frames.
   */
  lemma {:induction false} CatchUpCompose(path: seq<PathDetail>, index: nat, elapsed: real, extra: real)
    requires index < |path|
    requires extra >= 0.0
    ensures CatchUp(path, index, elapsed + extra)
         == CatchUp(path, CatchUp(path, index, elapsed).0, CatchUp(path, index, elapsed).1 + extra)
    decreases |path| - index
  {
    if index < |path| - 1 && elapsed >= path[index].duration {
      CatchUpCompose(path, index + 1, elapsed - path[index].duration, extra);
      assert elapsed + extra - path[index].duration == elapsed - path[index].duration + extra;
    }
  }

  /** The (step index, elapsed step time) after `frames` animation frames at a fixed speed, from the start of the route. */
  function ClockAfter(path: seq<PathDetail>, speed: real, frames: nat): (r: (nat, real))
    requires |path| > 0
    ensures r.0 < |path|
  {
    if frames == 0 then (0, 0.0)
    else
      var before := ClockAfter(path, speed, frames - 1);
      CatchUpProperties(path, before.0, before.1 + FrameTime(speed));
      CatchUp(path, before.0, before.1 + FrameTime(speed))
  }

  /** The simulated time of `frames` frames of `frameTime` seconds each, added up frame by frame. */
  function TimeAfter(frameTime: real, frames: nat): (t: real)
    ensures t == frames as real * frameTime
  {
    if frames == 0 then 0.0
    else
      RealMulSucc((frames - 1) as real, frameTime);
      TimeAfter(frameTime, frames - 1) + frameTime
  }

  lemma {:induction false} ClockAfterIsCatchUpOfTime(path: seq<PathDetail>, speed: real, frames: nat)
    requires |path| > 0
    requires speed >= 0.0
    requires frames >= 1
    ensures ClockAfter(path, speed, frames) == CatchUp(path, 0, TimeAfter(FrameTime(speed), frames))
  {
    var ft := FrameTime(speed);
    if frames > 1 {
      ClockAfterIsCatchUpOfTime(path, speed, frames - 1);
      CatchUpCompose(path, 0, TimeAfter(ft, frames - 1), ft);
    } else {
      assert TimeAfter(ft, 1) == 0.0 + ft;
    }
  }

  /** After one or more frames the clock equals one catch-up over all the simulated time so far. */
  lemma ClockAfterIsOneCatchUp(path: seq<PathDetail>, speed: real, frames: nat)
    requires |path| > 0
    requires speed >= 0.0
    requires frames >= 1
    ensures ClockAfter(path, speed, frames) == CatchUp(path, 0, frames as real * FrameTime(speed))
  {
    ClockAfterIsCatchUpOfTime(path, speed, frames);
  }

  lemma RealMulSucc(x: real, y: real)
    ensures (x + 1.0) * y == x * y + y
  {
  }

  /**
   * With durations that are never negative, catching up a total time from the
   * start reaches the last path entry exactly when that time covers the whole
   * route (the durations of every entry but the last).
   */
  lemma RouteFinishedIffTimeCovered(path: seq<PathDetail>, total: real)
    requires |path| > 0
    requires total >= 0.0
    requires forall k :: 0 <= k < |path| ==> path[k].duration >= 0.0
    ensures CatchUp(path, 0, total).0 == |path| - 1 <==> total >= ElapsedBefore(path, |path| - 1)
  {
    CatchUpProperties(path, 0, total);
    var (i, e) := CatchUp(path, 0, total);
    if i < |path| - 1 {
      ElapsedBeforeMonotone(path, i + 1, |path| - 1);
    }
  }

  /** One call of `updateCamera` (with `setCameraIndex`) on a frame counter and camera index. */
  function CameraStep(framesPerCamera: nat, numCameras: nat, frameCount: nat, cameraIndex: nat): (r: (nat, nat))
  {
    if frameCount + 1 > framesPerCamera then
      (0, if cameraIndex < numCameras - 1 then cameraIndex + 1 else 0)
    else
      (frameCount + 1, cameraIndex)
  }

  /** The frame counter and camera index after `calls` calls of `updateCamera`, from (0, 0). */
  function CameraAfter(framesPerCamera: nat, numCameras: nat, calls: nat): (nat, nat) {
    if calls == 0 then (0, 0)
    else
      var before := CameraAfter(framesPerCamera, numCameras, calls - 1);
      CameraStep(framesPerCamera, numCameras, before.0, before.1)
  }

  /** Counting one more: the remainder wraps to 0 and the quotient steps exactly when the remainder was m - 1. */
  lemma DivModNext(n: nat, m: nat)
    requires m > 0
    ensures n % m == m - 1 ==> (n + 1) % m == 0 && (n + 1) / m == n / m + 1
    ensures n % m < m - 1 ==> (n + 1) % m == n % m + 1 && (n + 1) / m == n / m
  {
    var q, r := n / m, n % m;
    if r == m - 1 {
      MulSucc(q, m);
      DivModUnique(n + 1, m, q + 1, 0);
    } else {
      DivModUnique(n + 1, m, q, r + 1);
    }
  }

  lemma MulSucc(q: int, m: int)
    ensures (q + 1) * m == q * m + m
  {
  }

  /** Division with remainder is unique. */
  lemma DivModUnique(a: nat, m: nat, q: nat, r: nat)
    requires m > 0 && r < m && a == q * m + r
    ensures a / m == q && a % m == r
  {
    var q', r' := a / m, a % m;
    if q' < q {
      MulAtLeast(q - q', m);
      MulDistributes(q, q', m);
    } else if q' > q {
      MulAtLeast(q' - q, m);
      MulDistributes(q', q, m);
    }
  }

  lemma MulDistributes(x: int, y: int, m: int)
    ensures x * m - y * m == (x - y) * m
  {
  }

  lemma MulAtLeast(k: int, m: nat)
    requires k >= 1
    ensures k * m >= m
  {
    MulSucc(k - 1, m);
    assert (k - 1) * m >= 0;
  }

  /**
   * The camera cycle: after `calls` calls the frame counter is `calls` modulo
   * `framesPerCamera + 1` and the preset index advanced once per
   * `framesPerCamera + 1` calls, wrapping from the last preset to the first.
   */
  lemma {:induction false} CameraCycle(framesPerCamera: nat, numCameras: nat, calls: nat)
    requires numCameras > 0
    ensures CameraAfter(framesPerCamera, numCameras, calls)
         == (calls % (framesPerCamera + 1), (calls / (framesPerCamera + 1)) % numCameras)
  {
    if calls > 0 {
      var m := framesPerCamera + 1;
      var n := calls - 1;
      CameraCycle(framesPerCamera, numCameras, n);
      var frame, round := n % m, n / m;
      var camera := round % numCameras;
      assert CameraAfter(framesPerCamera, numCameras, calls) == CameraStep(framesPerCamera, numCameras, frame, camera);
      DivModNext(n, m);
      if frame == m - 1 {
        assert calls % m == 0 && calls / m == round + 1;
        DivModNext(round, numCameras);
      } else {
        assert calls % m == frame + 1 && calls / m == round;
      }
    }
  }

  /**
   * With three frames per preset and two presets, the first seven calls leave
   * the camera index at 0, 0, 0, 1, 1, 1, 1: each preset is held for
   * `framesPerCamera + 1` calls, so the seventh call is still on the second preset and the eighth
   * returns to the first.
   */
  lemma CameraCycleExample()
    ensures forall calls :: 1 <= calls <= 3 ==> CameraAfter(3, 2, calls).1 == 0
    ensures forall calls :: 4 <= calls <= 7 ==> CameraAfter(3, 2, calls).1 == 1
    ensures CameraAfter(3, 2, 8).1 == 0
  {
    forall calls | 1 <= calls <= 8
      ensures CameraAfter(3, 2, calls) == (calls % 4, (calls / 4) % 2)
    {
      CameraCycle(3, 2, calls);
    }
  }

  /** The state of one simulation: the route, the clock, the camera cycle and the listener attached to the host. */
  class ModelSimulator {
    const geHelper: GeHelpers
    var doAnimation: bool
    var speed: real
    var pathDetails: seq<PathDetail>
    var elapsedStepTime: real
    var geStepIndex: nat
    var currentSpeed: real
    var frameCount: nat
    var cameraIndex: nat
    var cameras: seq<Camera>
    var requiredTravelTime: real
    var totalTime: real
    var listener: Listener
    /** Frames counted by the initial-view listener. */
    var waitFrames: nat
    /** The first coordinate and heading, captured when the movement driver starts. */
    var initialCoordinate: LatLng
    var initialHeading: real

    /**
     * The simulator's invariant: the clock is within the path, elapsed step
     * time is never negative, the total time is the elapsed step time plus the
     * durations of every step already passed (no drift), and the camera cycle
     * stays within its counter bound and the camera list.
     */
    ghost predicate Valid()
      reads this
    {
      && speed >= 0.0
      && requiredTravelTime >= 0.0
      && elapsedStepTime >= 0.0
      && (if pathDetails == [] then geStepIndex == 0 else geStepIndex < |pathDetails|)
      && totalTime == elapsedStepTime + ElapsedBefore(pathDetails, geStepIndex)
      && frameCount <= FramesPerCamera
      && cameraIndex < |cameras|
    }

    /** Every field but `doAnimation` holds what it held in the earlier state. */
    twostate predicate SameButAnimationFlag()
      reads this
    {
      && speed == old(speed) && pathDetails == old(pathDetails)
      && elapsedStepTime == old(elapsedStepTime) && geStepIndex == old(geStepIndex)
      && currentSpeed == old(currentSpeed) && frameCount == old(frameCount)
      && cameraIndex == old(cameraIndex) && cameras == old(cameras)
      && requiredTravelTime == old(requiredTravelTime) && totalTime == old(totalTime)
      && listener == old(listener) && waitFrames == old(waitFrames)
      && initialCoordinate == old(initialCoordinate) && initialHeading == old(initialHeading)
    }

    constructor (helper: GeHelpers)
      ensures Valid()
      ensures geHelper == helper && !doAnimation && speed == 1.0 && pathDetails == []
      ensures elapsedStepTime == 0.0 && geStepIndex == 0 && currentSpeed == 0.0
      ensures frameCount == 0 && cameraIndex == 0 && cameras == InitialCameras
      ensures requiredTravelTime == 0.0 && totalTime == 0.0 && listener == NoListener
    {
      geHelper := helper;
      doAnimation := false;
      speed := 1.0;
      pathDetails := [];
      elapsedStepTime := 0.0;
      geStepIndex := 0;
      currentSpeed := 0.0;
      frameCount := 0;
      cameraIndex := 0;
      cameras := [];
      requiredTravelTime := 0.0;
      totalTime := 0.0;
      listener := NoListener;
      waitFrames := 0;
      initialCoordinate := LatLng(0.0, 0.0);
      initialHeading := 0.0;
      new;
      PopulateInitialCameras();
    }

    /** Append a camera preset at index `cameras.length`. */
    method AddNewCamera(heading: real, tilt: real, range: real)
      modifies this`cameras
      ensures cameras == old(cameras) + [Camera(heading, tilt, range)]
    {
      cameras := cameras + [Camera(heading, tilt, range)];
    }

    method PopulateInitialCameras()
      modifies this`cameras
      ensures cameras == old(cameras) + InitialCameras
    {
      AddNewCamera(200.0, 60.0, 300.0);
      AddNewCamera(-47.3872, 80.5524, 102.0);
      AddNewCamera(44.50891, 80.0, 664.0);
      AddNewCamera(20.0, 0.0, 200.0);
    }

    /** The heading from the first to the second coordinate, or 0 when there is no second one. */
    function GetInitialModelHeading(): (h: real)
      reads this
      ensures |pathDetails| <= 1 ==> h == 0.0
      ensures |pathDetails| > 1 ==> h == geHelper.getHeading(pathDetails[0].loc, pathDetails[1].loc)
    {
      if |pathDetails| > 1 then geHelper.getHeading(pathDetails[0].loc, pathDetails[1].loc) else 0.0
    }

    /** Set the speed from the entered ETA in minutes (the slider's value, 0 meaning real time). */
    method SetMovementSpeed(enteredTime: nat)
      requires Valid()
      modifies this`speed
      ensures Valid()
      ensures speed == MovementSpeed(enteredTime, requiredTravelTime)
      ensures enteredTime == 0 ==> speed == 1.0
      ensures enteredTime > 0 ==> speed * (enteredTime as real * 60.0) == requiredTravelTime
    {
      MovementSpeedMeetsEta(enteredTime, requiredTravelTime);
      if enteredTime == 0 {
        speed := 1.0;
      } else {
        speed := requiredTravelTime / (enteredTime as real * 60.0);
      }
    }

    /**
     * Whether a coordinate after the current one remains to be travelled to:
     * on a non-empty path, false exactly at the last entry.
     */
    predicate MoreCoordinatesToMoveAlong(): (more: bool)
      reads this
      ensures Valid() && pathDetails != [] ==> (!more <==> geStepIndex == |pathDetails| - 1)
    {
      geStepIndex < |pathDetails| - 1
    }

    /**
     * Whether the elapsed time covers the current step. Together with
     * `MoreCoordinatesToMoveAlong` it is the catch-up loop's guard: the loop
     * goes on exactly when the catch-up still has a step to pass.
     */
    predicate WentOverStepDuration(stepDuration: real): (went: bool)
      reads this
      ensures Valid() && pathDetails != [] && stepDuration == pathDetails[geStepIndex].duration ==>
        (MoreCoordinatesToMoveAlong() && went <==> CatchUp(pathDetails, geStepIndex, elapsedStepTime).0 > geStepIndex)
    {
      elapsedStepTime >= stepDuration
    }

    /**
     * The catch-up loop: consume every whole step the elapsed time covers,
     * subtracting each step's exact duration, and return the duration of the
     * step the clock ends in.
     */
    method AdjustTimingIfNextStepEntered(stepDuration: real) returns (newStepDuration: real)
      requires Valid()
      requires pathDetails != [] && stepDuration == pathDetails[geStepIndex].duration
      modifies this`elapsedStepTime, this`geStepIndex
      ensures Valid()
      ensures (geStepIndex, elapsedStepTime) == CatchUp(pathDetails, old(geStepIndex), old(elapsedStepTime))
      ensures old(geStepIndex) <= geStepIndex <= |pathDetails| - 1
      ensures newStepDuration == pathDetails[geStepIndex].duration
      ensures MoreCoordinatesToMoveAlong() ==> 0.0 <= elapsedStepTime < newStepDuration
    {
      CatchUpProperties(pathDetails, geStepIndex, elapsedStepTime);
      newStepDuration := stepDuration;
      while MoreCoordinatesToMoveAlong() && WentOverStepDuration(newStepDuration)
        invariant Valid()
        invariant old(geStepIndex) <= geStepIndex < |pathDetails|
        invariant newStepDuration == pathDetails[geStepIndex].duration
        invariant CatchUp(pathDetails, geStepIndex, elapsedStepTime)
               == CatchUp(pathDetails, old(geStepIndex), old(elapsedStepTime))
        decreases |pathDetails| - geStepIndex
      {
        elapsedStepTime := elapsedStepTime - newStepDuration;
        geStepIndex := geStepIndex + 1;
        newStepDuration := pathDetails[geStepIndex].duration;
      }
    }

    method UpdateCurrentSpeed(stepDistance: real, stepDuration: real)
      modifies this`currentSpeed
      ensures currentSpeed == StepSpeed(stepDistance, stepDuration)
    {
      if stepDuration > 0.0 {
        currentSpeed := stepDistance / stepDuration;
      } else {
        currentSpeed := 0.0;
      }
    }

    /**
     * The point the model has reached on the current step, with the fraction
     * of the step's duration already travelled: below one while the clock is
     * inside the step, so the point lies between the step's coordinate and the next.
     */
    function GetIntermediateCoordinate(stepDuration: real): (r: (LatLng, real))
      reads this
      requires geStepIndex + 1 < |pathDetails|
      requires 0.0 <= elapsedStepTime < stepDuration
      ensures 0.0 <= r.1 < 1.0 && r.1 * stepDuration == elapsedStepTime
      ensures r.0 == geHelper.interpolateLoc(pathDetails[geStepIndex].loc, pathDetails[geStepIndex + 1].loc, r.1)
    {
      FractionBelowOne(elapsedStepTime, stepDuration);
      var fraction := elapsedStepTime / stepDuration;
      (geHelper.interpolateLoc(pathDetails[geStepIndex].loc, pathDetails[geStepIndex + 1].loc, fraction), fraction)
    }

    /**
     * One animation frame: advance both clocks by one frame's simulated time,
     * catch up over whole steps, update the displayed speed, and place the
     * model the elapsed fraction of the way along the current step, facing
     * from the step's coordinate to the next. When the catch-up reached the
     * last entry there is no next coordinate to read and the model is not
     * moved.
     */
    method CalcNextAnimationFrame() returns (move: FrameMove)
      requires Valid() && pathDetails != []
      modifies this`totalTime, this`elapsedStepTime, this`geStepIndex, this`currentSpeed
      ensures Valid()
      ensures totalTime == old(totalTime) + FrameTime(speed)
      ensures (geStepIndex, elapsedStepTime)
           == CatchUp(pathDetails, old(geStepIndex), old(elapsedStepTime) + FrameTime(speed))
      // The distance is the one of the step the frame began in, the duration that of the step it ends in.
      ensures currentSpeed == StepSpeed(pathDetails[old(geStepIndex)].distance, pathDetails[geStepIndex].duration)
      ensures move.NoNextNode? <==> !MoreCoordinatesToMoveAlong()
      ensures move.Moved? ==>
        && 0.0 <= elapsedStepTime < pathDetails[geStepIndex].duration
        && (move.loc, move.fraction) == GetIntermediateCoordinate(pathDetails[geStepIndex].duration)
        && move.heading == geHelper.getHeading(pathDetails[geStepIndex].loc, pathDetails[geStepIndex + 1].loc)
        && move.camera == cameras[cameraIndex]
    {
      var frameTime := FrameTime(speed);
      totalTime := totalTime + frameTime;
      elapsedStepTime := elapsedStepTime + frameTime;

      var stepDistance := pathDetails[geStepIndex].distance;
      var stepDuration := pathDetails[geStepIndex].duration;
      stepDuration := AdjustTimingIfNextStepEntered(stepDuration);
      UpdateCurrentSpeed(stepDistance, stepDuration);

      if geStepIndex + 1 < |pathDetails| {
        var (intermediate, fraction) := GetIntermediateCoordinate(stepDuration);
        var heading := geHelper.getHeading(pathDetails[geStepIndex].loc, pathDetails[geStepIndex + 1].loc);
        move := Moved(intermediate, heading, fraction, cameras[cameraIndex]);
      } else {
        move := NoNextNode;
      }
    }

    method SetCameraIndex()
      requires cameraIndex < |cameras|
      modifies this`cameraIndex
      ensures cameraIndex < |cameras|
      ensures cameraIndex == if old(cameraIndex) < |cameras| - 1 then old(cameraIndex) + 1 else 0
    {
      if cameraIndex < |cameras| - 1 {
        cameraIndex := cameraIndex + 1;
      } else {
        cameraIndex := 0;
      }
    }

    /** Count a frame for the current camera; after `FramesPerCamera` more, move to the next preset. */
    method UpdateCamera()
      requires Valid()
      modifies this`frameCount, this`cameraIndex
      ensures Valid()
      ensures (frameCount, cameraIndex) == CameraStep(FramesPerCamera, |cameras|, old(frameCount), old(cameraIndex))
    {
      frameCount := frameCount + 1;
      if frameCount > FramesPerCamera {
        SetCameraIndex();
        frameCount := 0;
      }
    }

    /** Whether the end-of-simulation tasks run: only when no coordinates remain, so not after an interruption. */
    predicate CompletedTasksRun(): (completed: bool)
      reads this
      ensures Valid() ==> (completed <==> pathDetails == [] || geStepIndex == |pathDetails| - 1)
    {
      !MoreCoordinatesToMoveAlong()
    }

    /**
     * Start moving the model: capture the first coordinate and heading, set the
     * speed, and attach the listener that waits for the camera to reach the
     * start. Reading the first coordinate of an empty path fails before
     * anything is attached.
     */
    method ModelMovementDriver(enteredTime: nat) returns (ok: bool)
      requires Valid()
      modifies this
      ensures Valid()
      ensures pathDetails == old(pathDetails)
      ensures ok <==> pathDetails != []
      ensures !ok ==> unchanged(this)
      ensures ok ==>
        && initialCoordinate == pathDetails[0].loc
        && initialHeading == GetInitialModelHeading()
        && speed == MovementSpeed(enteredTime, requiredTravelTime)
        && listener == WaitForInitialView && waitFrames == 0
      ensures geStepIndex == old(geStepIndex)
      ensures elapsedStepTime == old(elapsedStepTime) && totalTime == old(totalTime)
      ensures doAnimation == old(doAnimation) && cameras == old(cameras) && cameraIndex == old(cameraIndex)
      ensures frameCount == old(frameCount) && requiredTravelTime == old(requiredTravelTime)
      ensures currentSpeed == old(currentSpeed)
    {
      if pathDetails == [] {
        ok := false;
        return;
      }
      ok := true;
      initialCoordinate := pathDetails[0].loc;
      initialHeading := GetInitialModelHeading();
      waitFrames := 0;
      SetMovementSpeed(enteredTime);
      listener := WaitForInitialView;
    }

    /**
     * The animation listener's callback: while `doAnimation` holds and
     * coordinates remain, count a camera frame and step the model; otherwise
     * detach the listener, running the end-of-simulation tasks only when no
     * coordinates remain.
     */
    method AnimationCallback() returns (event: FrameEvent)
      requires Valid() && listener == Animation && pathDetails != []
      modifies this
      ensures Valid()
      ensures pathDetails == old(pathDetails) && cameras == old(cameras) && speed == old(speed)
      ensures requiredTravelTime == old(requiredTravelTime) && doAnimation == old(doAnimation)
      ensures waitFrames == old(waitFrames)
      ensures initialCoordinate == old(initialCoordinate) && initialHeading == old(initialHeading)
      ensures old(doAnimation) && old(MoreCoordinatesToMoveAlong()) ==>
        && event.Advanced? && listener == Animation
        && (frameCount, cameraIndex) == CameraStep(FramesPerCamera, |cameras|, old(frameCount), old(cameraIndex))
        && totalTime == old(totalTime) + FrameTime(speed)
        && (geStepIndex, elapsedStepTime)
           == CatchUp(pathDetails, old(geStepIndex), old(elapsedStepTime) + FrameTime(speed))
        && currentSpeed == StepSpeed(pathDetails[old(geStepIndex)].distance, pathDetails[geStepIndex].duration)
        && (event.move.NoNextNode? <==> !MoreCoordinatesToMoveAlong())
        && (event.move.Moved? ==>
              && 0.0 <= elapsedStepTime < pathDetails[geStepIndex].duration
              && (event.move.loc, event.move.fraction) == GetIntermediateCoordinate(pathDetails[geStepIndex].duration)
              && event.move.heading == geHelper.getHeading(pathDetails[geStepIndex].loc, pathDetails[geStepIndex + 1].loc)
              && event.move.camera == cameras[cameraIndex])
      ensures !(old(doAnimation) && old(MoreCoordinatesToMoveAlong())) ==>
        && event == Finished(!old(MoreCoordinatesToMoveAlong()))
        && listener == NoListener
        && geStepIndex == old(geStepIndex) && elapsedStepTime == old(elapsedStepTime)
        && totalTime == old(totalTime) && cameraIndex == old(cameraIndex)
        && frameCount == old(frameCount) && currentSpeed == old(currentSpeed)
    {
      if doAnimation && MoreCoordinatesToMoveAlong() {
        UpdateCamera();
        var move := CalcNextAnimationFrame();
        event := Advanced(move);
      } else {
        var completed := CompletedTasksRun();
        listener := NoListener;
        event := Finished(completed);
      }
    }

    /**
     * One "frameend" notification from the host, given whether the camera has
     * reached the start of the route. While waiting for the initial view, the
     * animation starts once the camera is there or after `MaxInitialViewDelay`
     * frames. While animating, a frame steps only when `doAnimation` holds and
     * coordinates remain; otherwise the listener detaches itself, running the
     * end-of-simulation tasks only when no coordinates remain.
     */
    method FrameEnd(atStartPos: bool) returns (event: FrameEvent)
      requires Valid()
      requires listener == Animation ==> pathDetails != []
      modifies this
      ensures Valid()
      ensures pathDetails == old(pathDetails) && cameras == old(cameras) && speed == old(speed)
      ensures requiredTravelTime == old(requiredTravelTime)
      ensures old(listener) == NoListener ==> event == NotListening && unchanged(this)
      ensures old(listener) == WaitForInitialView ==>
        && waitFrames == old(waitFrames) + 1
        && geStepIndex == old(geStepIndex) && elapsedStepTime == old(elapsedStepTime) && totalTime == old(totalTime)
        && frameCount == old(frameCount) && cameraIndex == old(cameraIndex) && currentSpeed == old(currentSpeed)
        && initialCoordinate == old(initialCoordinate) && initialHeading == old(initialHeading)
        && (if atStartPos || waitFrames > MaxInitialViewDelay
            then event == Started(initialCoordinate, initialHeading, cameras[cameraIndex])
                 && listener == Animation && doAnimation
            else event == Waiting && listener == WaitForInitialView && doAnimation == old(doAnimation))
      ensures old(listener) == Animation && old(doAnimation) && old(MoreCoordinatesToMoveAlong()) ==>
        && event.Advanced? && listener == Animation
        && (frameCount, cameraIndex) == CameraStep(FramesPerCamera, |cameras|, old(frameCount), old(cameraIndex))
        && totalTime == old(totalTime) + FrameTime(speed)
        && (geStepIndex, elapsedStepTime)
           == CatchUp(pathDetails, old(geStepIndex), old(elapsedStepTime) + FrameTime(speed))
        && currentSpeed == StepSpeed(pathDetails[old(geStepIndex)].distance, pathDetails[geStepIndex].duration)
        && (event.move.NoNextNode? <==> !MoreCoordinatesToMoveAlong())
        && (event.move.Moved? ==>
              && 0.0 <= elapsedStepTime < pathDetails[geStepIndex].duration
              && (event.move.loc, event.move.fraction) == GetIntermediateCoordinate(pathDetails[geStepIndex].duration)
              && event.move.heading == geHelper.getHeading(pathDetails[geStepIndex].loc, pathDetails[geStepIndex + 1].loc)
              && event.move.camera == cameras[cameraIndex])
        && waitFrames == old(waitFrames)
        && initialCoordinate == old(initialCoordinate) && initialHeading == old(initialHeading)
      ensures old(listener) == Animation && !(old(doAnimation) && old(MoreCoordinatesToMoveAlong())) ==>
        && event == Finished(!old(MoreCoordinatesToMoveAlong()))
        && listener == NoListener
        && geStepIndex == old(geStepIndex) && elapsedStepTime == old(elapsedStepTime)
        && totalTime == old(totalTime) && cameraIndex == old(cameraIndex)
        && frameCount == old(frameCount) && currentSpeed == old(currentSpeed) && waitFrames == old(waitFrames)
        && initialCoordinate == old(initialCoordinate) && initialHeading == old(initialHeading)
      ensures old(listener) != WaitForInitialView ==> doAnimation == old(doAnimation)
    {
      match listener
      case NoListener =>
        event := NotListening;
      case WaitForInitialView =>
        waitFrames := waitFrames + 1;
        if atStartPos || waitFrames > MaxInitialViewDelay {
          listener := Animation;
          doAnimation := true;
          event := Started(initialCoordinate, initialHeading, cameras[cameraIndex]);
        } else {
          event := Waiting;
        }
      case Animation =>
        event := AnimationCallback();
    }
  }
}

=== FILE: model_creation.dfy ===
/**
 * The model loading of scripts/modelCreation.js: which URL is loaded, how it
 * is fetched by its extension, the test whether a fetched KML object holds a
 * model and the search for its first model child, and the reading of the
 * server's reply on whether a Collada file exists.
 */
module ModelCreation {
  import opened Common
  import opened Menu

  /**
   * A feature of a fetched KML object: one without a `getGeometry` member
   * (a folder, say), a placemark whose `getGeometry()` answers null, or a
   * placemark with a geometry of the given type.
   */
  datatype KmlChild = NoGeometryMember | NullGeometry | Placemark(geometryType: string)

  /** A fetched KML object is its list of features, or None when nothing could be parsed. */
  type KmlObject = Option<seq<KmlChild>>

  /** How the model file is fetched. */
  datatype ModelFetch = FetchKmz | FetchCollada

  predicate IsModelChild(child: KmlChild) {
    child == Placemark("KmlModel")
  }

  /** The index of the first model child, or -1 when there is none. */
  function FirstModelChild(children: seq<KmlChild>): int
    decreases |children|
  {
    if children == [] then -1
    else if IsModelChild(children[0]) then 0
    else
      var rest := FirstModelChild(children[1..]);
      if rest == -1 then -1 else rest + 1
  }

  /** FirstModelChild is -1 exactly when no child is a model, and otherwise the smallest model index. */
  lemma {:induction false} FirstModelChildSpec(children: seq<KmlChild>)
    ensures var p := FirstModelChild(children);
      && -1 <= p < |children|
      && (p == -1 <==> forall k :: 0 <= k < |children| ==> !IsModelChild(children[k]))
      && (p >= 0 ==> IsModelChild(children[p]) && forall k :: 0 <= k < p ==> !IsModelChild(children[k]))
    decreases |children|
  {
    if children != [] && !IsModelChild(children[0]) {
      FirstModelChildSpec(children[1..]);
      assert forall k :: 1 <= k < |children| ==> children[k] == children[1..][k - 1];
    }
  }

  /**
   * The scan for a model child fails: calling `getType` on the null geometry
   * of a placemark it reaches before any model child throws a TypeError.
   */
  predicate ScanThrows(children: seq<KmlChild>) {
    exists k :: 0 <= k < |children| && children[k] == NullGeometry && NoModelBefore(children, k)
  }

  predicate NoModelBefore(children: seq<KmlChild>, k: nat)
    requires k <= |children|
  {
    forall j :: 0 <= j < k ==> !IsModelChild(children[j])
  }

  /**
   * getKmlModelChild: scan the children until one has a geometry of type
   * KmlModel, and return its index, or -1. A placemark with a null geometry
   * reached on the way makes the scan throw (`threw`), with no index.
   */
  method GetKmlModelChild(children: seq<KmlChild>) returns (modelPosition: int, threw: bool)
    ensures -1 <= modelPosition < |children|
    ensures threw <==> ScanThrows(children)
    ensures threw ==> modelPosition == -1
    ensures !threw ==> (modelPosition == -1 <==> forall k :: 0 <= k < |children| ==> !IsModelChild(children[k]))
    ensures !threw && modelPosition >= 0 ==> IsModelChild(children[modelPosition]) && NoModelBefore(children, modelPosition)
    ensures !threw ==> modelPosition == FirstModelChild(children)
  {
    FirstModelChildSpec(children);
    modelPosition := -1;
    threw := false;
    var isModel := false;
    var i := 0;
    while i < |children| && !isModel
      invariant 0 <= i <= |children|
      invariant isModel ==> 0 <= modelPosition < i && IsModelChild(children[modelPosition])
      invariant !isModel ==> modelPosition == -1
      invariant NoModelBefore(children, if isModel then modelPosition else i)
      invariant forall k :: 0 <= k < (if isModel then modelPosition else i) ==> children[k] != NullGeometry
    {
      var tempKmlPlacemark := children[i];
      if tempKmlPlacemark == NullGeometry {
        threw := true;
        return;
      }
      if tempKmlPlacemark.NoGeometryMember? || tempKmlPlacemark.geometryType != "KmlModel" {
        isModel := false;
      } else {
        isModel := true;
        modelPosition := i;
      }
      i := i + 1;
    }
    assert !ScanThrows(children) by {
      forall k | 0 <= k < |children| && children[k] == NullGeometry
        ensures !NoModelBefore(children, k)
      {
        assert isModel && modelPosition < k;
      }
    }
  }

  /** Whether the object exists and has at least one feature. */
  function DoesKmlObjectHaveValues(kmlObject: KmlObject): (hasValues: bool)
    ensures hasValues <==> kmlObject.Some? && |kmlObject.value| > 0
  {
    !(kmlObject.None? || |kmlObject.value| == 0)
  }

  /** isKmlObjectAModel: whether the scan finds a model child; it throws as the scan does. */
  method IsKmlObjectAModel(children: seq<KmlChild>) returns (isModel: bool, threw: bool)
    ensures threw <==> ScanThrows(children)
    ensures !threw ==> (isModel <==> exists k :: 0 <= k < |children| && IsModelChild(children[k]))
  {
    var position;
    position, threw := GetKmlModelChild(children);
    isModel := position != -1;
  }

  /**
   * validKmlObject: the object has features and one of them is a model. It
   * throws when the scan of a non-empty object does.
   */
  method ValidKmlObject(kmlObject: KmlObject) returns (valid: bool, threw: bool)
    ensures threw <==> kmlObject.Some? && ScanThrows(kmlObject.value)
    ensures !threw ==> (valid <==> kmlObject.Some? && exists k :: 0 <= k < |kmlObject.value| && IsModelChild(kmlObject.value[k]))
  {
    valid := true;
    threw := false;
    if !DoesKmlObjectHaveValues(kmlObject) {
      valid := false;
    } else {
      var isModel;
      isModel, threw := IsKmlObjectAModel(kmlObject.value);
      if threw {
        return;
      }
      if !isModel {
        valid := false;
      }
    }
  }

  /**
   * createModelKmlObjectParser: a valid object has its first model child
   * placed on the earth (`placed` is its index); otherwise the invalid-model
   * error is shown. When the validity test throws, neither happens.
   */
  method CreateModelKmlObjectParser(kmlObject: KmlObject) returns (error: bool, placed: Option<nat>, threw: bool)
    ensures threw <==> kmlObject.Some? && ScanThrows(kmlObject.value)
    ensures threw ==> !error && placed.None?
    ensures !threw ==> (error <==> placed.None?)
    ensures !threw ==> (error <==> !(kmlObject.Some? && exists k :: 0 <= k < |kmlObject.value| && IsModelChild(kmlObject.value[k])))
    ensures placed.Some? ==> kmlObject.Some? && placed.value as int == FirstModelChild(kmlObject.value)
  {
    error := false;
    placed := None;
    var valid;
    valid, threw := ValidKmlObject(kmlObject);
    if threw {
      return;
    }
    if valid {
      var childIndex, _ := GetKmlModelChild(kmlObject.value);
      placed := Some(childIndex as nat);
    } else {
      error := true;
    }
  }

  /** The URL of the model: the entered one when "custom" is selected, else the selected option's value. */
  function GetModelURL(selectedModel: string, kmzURL: string): (modelURL: string)
    ensures selectedModel == "custom" ==> modelURL == kmzURL
    ensures selectedModel != "custom" ==> modelURL == selectedModel
  {
    if selectedModel == "custom" then kmzURL else selectedModel
  }

  /** createModel: fetch as KMZ when the URL ends like `.kmz` or `.zip`, and as Collada when it ends like `.dae`. */
  function CreateModel(modelURL: string): (fetches: seq<ModelFetch>)
    ensures FetchKmz in fetches <==> CheckStringEndText(modelURL, ".kmz") || CheckStringEndText(modelURL, ".zip")
    ensures FetchCollada in fetches <==> CheckStringEndText(modelURL, ".dae")
  {
    (if CheckStringEndText(modelURL, ".kmz") || CheckStringEndText(modelURL, ".zip") then [FetchKmz] else [])
    + (if CheckStringEndText(modelURL, ".dae") then [FetchCollada] else [])
  }

  /** At most one fetch is made, and none exactly for a URL the menu rejects for its extension. */
  lemma CreateModelFetchesAtMostOnce(modelURL: string)
    ensures |CreateModel(modelURL)| <= 1
    ensures CreateModel(modelURL) == [] <==> InvalidURLFileExtension(modelURL)
  {
    if CheckStringEndText(modelURL, ".dae") {
      var n := |modelURL|;
      assert modelURL[n - 3..] == "dae";
      assert modelURL[n - 3..][2] == 'e';
    }
  }

  /** The reply of the Collada existence check: the file exists only when the reply is exactly "true". */
  function ColladaFileExists(reply: string): (fileExists: bool)
  {
    reply == "true"
  }

  /**
   * A failed request answers "null", which reads as a missing file, and so
   * does any reply but "true"; the reply "true" reads as an existing file.
   */
  lemma FailedColladaCheckIsMissing(reply: string)
    requires reply != "true"
    ensures !ColladaFileExists("null") && !ColladaFileExists(reply)
    ensures ColladaFileExists("true")
  {
  }
}

=== FILE: model_lookup.dfy ===
/**
 * getIDIfModelExists of php/require/_getIDIfModelExists.php: the ModelID of
 * the first model row whose URL is the given one, or -1. The rows of the
 * `SELECT * FROM model` query are a parameter.
 */
module ModelLookup {

  /** One row of the model table. */
  datatype ModelRow = ModelRow(modelId: nat, url: string)

  /** The query listing every model row. */
  const ModelQuery := "SELECT * FROM model"

  /** The ModelID of the first row with the URL, or -1 when there is none. */
  function FirstModelID(models: seq<ModelRow>, url: string): (id: int)
    ensures id == -1 <==> forall k :: 0 <= k < |models| ==> models[k].url != url
    ensures id != -1 ==> exists k :: 0 <= k < |models| && models[k].url == url && models[k].modelId == id
                                  && forall j :: 0 <= j < k ==> models[j].url != url
  {
    if models == [] then -1
    else if models[0].url == url then models[0].modelId
    else
      var id := FirstModelID(models[1..], url);
      assert forall k :: 0 < k < |models| ==> models[k] == models[1..][k - 1];
      id
  }

  /** Rows after the first match never change the result. */
  lemma {:induction false} FirstModelIDIgnoresLater(models: seq<ModelRow>, later: seq<ModelRow>, url: string)
    requires exists k :: 0 <= k < |models| && models[k].url == url
    ensures FirstModelID(models + later, url) == FirstModelID(models, url)
  {
    if models[0].url != url {
      var k :| 0 <= k < |models| && models[k].url == url;
      assert models[1..][k - 1] == models[k];
      FirstModelIDIgnoresLater(models[1..], later, url);
      assert (models + later)[1..] == models[1..] + later;
    }
  }

  /**
   * The scan: the query text, and the ModelID of the first matching row, or
   * -1; the loop stops at the first match.
   */
  method GetIDIfModelExists(models: seq<ModelRow>, url: string, optWhereArgs: string) returns (sql: string, existingModelID: int)
    ensures sql == ModelQuery + optWhereArgs
    ensures existingModelID == FirstModelID(models, url)
  {
    var modelExists := false;
    existingModelID := -1;
    sql := ModelQuery + optWhereArgs;
    var i := 0;
    while i < |models|
      invariant 0 <= i <= |models|
      invariant !modelExists && existingModelID == -1
      invariant FirstModelID(models, url) == FirstModelID(models[i..], url)
    {
      if models[i].url == url {
        modelExists := true;
        existingModelID := models[i].modelId;
        break;
      }
      assert models[i..][1..] == models[i + 1..];
      i := i + 1;
    }
  }
}

=== FILE: route_creation.dfy ===
/**
 * Route building of scripts/routeCreation.js: reading the From/To values of
 * the menu, and turning a directions result into the simulator's path details
 * and the KML line string drawn on the globe.
 *
 * The directions service itself is network I/O; its result is an input here.
 * JavaScript's number-to-text conversion of a coordinate is the parameter
 * `numberText`.
 */
module RouteCreation {
  import opened Common
  import opened ModelAnimation

  /** A DirectionsStep: its distance (metres), its duration (seconds) and the coordinates of its line. */
  datatype Step = Step(distanceValue: real, durationValue: real, path: seq<LatLng>)

  /** A DirectionsLeg: its duration (seconds) and its steps. */
  datatype Leg = Leg(durationValue: real, steps: seq<Step>)

  datatype DirectionsRoute = DirectionsRoute(legs: seq<Leg>)

  datatype DirectionsResult = DirectionsResult(routes: seq<DirectionsRoute>)

  /** The From and To destinations; `to` is missing when the tokenised value had no semicolon. */
  datatype RoutePoints = RoutePoints(from: string, to: Option<string>)

  datatype TravelMode = Driving | Transit

  datatype DirectionsRequest = DirectionsRequest(origin: string, destination: Option<string>, travelMode: Option<TravelMode>)

  const KmlHeader: string := "<LineString><coordinates>\n"
  const KmlFooter: string := "</coordinates></LineString>"

  /** Split a route option's value at its semicolons: the first piece is From, the second To. */
  function TokenizeRouteValue(route: string): (points: RoutePoints)
    ensures FieldBefore(route, ';', points.from)
    ensures points.to.Some? <==> ';' in route
    ensures points.to.Some? ==> FieldBefore(route[|points.from| + 1..], ';', points.to.value)
  {
    var tokens := Split(route, ';');
    SplitFirst(route, ';');
    assert |tokens| > 1 ==> FieldBefore(route[|tokens[0]| + 1..], ';', tokens[1]) by {
      if |tokens| > 1 {
        SplitFirst(route[|tokens[0]| + 1..], ';');
      }
    }
    RoutePoints(tokens[0], if |tokens| > 1 then Some(tokens[1]) else None)
  }

  /** A value joined from two semicolon-free halves tokenises back into those halves. */
  lemma TokenizeRoundTrip(start: string, end: string)
    requires ';' !in start && ';' !in end
    ensures TokenizeRouteValue(start + ";" + end) == RoutePoints(start, Some(end))
  {
    SplitJoined(start, ';', end);
    assert start + ";" + end == start + [';'] + end;
  }

  /**
   * The From/To values of the form: the raw custom fields when a custom route
   * was entered, otherwise the tokenised value of the selected route option.
   */
  function GetEnteredRouteValues(wasCustomRouteEntered: bool, customFrom: string, customTo: string, selectedRoute: string): (points: RoutePoints)
    ensures wasCustomRouteEntered ==> points.from == customFrom && points.to == Some(customTo)
    ensures !wasCustomRouteEntered ==> FieldBefore(selectedRoute, ';', points.from)
    ensures !wasCustomRouteEntered ==> (points.to.Some? <==> ';' in selectedRoute)
    ensures !wasCustomRouteEntered && points.to.Some? ==>
      FieldBefore(selectedRoute[|points.from| + 1..], ';', points.to.value)
  {
    if wasCustomRouteEntered then RoutePoints(customFrom, Some(customTo))
    else TokenizeRouteValue(selectedRoute)
  }

  /** The travel mode for the method drop-down's value; any other value leaves it undefined. */
  function DetermineTransitType(travelMethod: string): (mode: Option<TravelMode>)
    ensures mode == Some(Driving) <==> travelMethod == "driving"
    ensures mode == Some(Transit) <==> travelMethod == "transit"
  {
    if travelMethod == "driving" then Some(Driving)
    else if travelMethod == "transit" then Some(Transit)
    else None
  }

  function CreateDirectionsRequest(points: RoutePoints, transitType: Option<TravelMode>): (request: DirectionsRequest)
    ensures request.origin == points.from && request.destination == points.to
    ensures request.travelMode == transitType
  {
    DirectionsRequest(points.from, points.to, transitType)
  }

  /** The distance from the step's coordinate `k` to the next one of the same step; 0 for its last coordinate. */
  function CalculatePathDetailsDistance(helper: GeHelpers, step: Step, k: nat): (d: real)
    requires k < |step.path|
    ensures k == |step.path| - 1 ==> d == 0.0
    ensures k < |step.path| - 1 ==> d == helper.distance(step.path[k], step.path[k + 1])
  {
    if k == |step.path| - 1 then 0.0 else helper.distance(step.path[k], step.path[k + 1])
  }

  /**
   * The step's duration shared out in proportion to distance. JavaScript
   * gives NaN or an infinity for a zero step distance; the model requires a
   * non-zero one.
   */
  function CalculatePathDetailsDuration(step: Step, nextCoordDistance: real, stepDistance: real): (t: real)
    requires stepDistance != 0.0
    ensures t * stepDistance == step.durationValue * nextCoordDistance
    ensures nextCoordDistance == 0.0 ==> t == 0.0
  {
    step.durationValue * nextCoordDistance / stepDistance
  }

  /** The KML text for one coordinate: longitude, latitude and a fixed altitude of 10. */
  function AppendToKmlLineString(numberText: real -> string, longitude: real, latitude: real): string {
    numberText(longitude) + "," + numberText(latitude) + ",10\n"
  }

  /** A step whose line has coordinates has a non-zero distance (every coordinate divides by it). */
  predicate StepDivisible(step: Step) {
    |step.path| > 0 ==> step.distanceValue != 0.0
  }

  predicate LegDivisible(leg: Leg) {
    forall j :: 0 <= j < |leg.steps| ==> StepDivisible(leg.steps[j])
  }

  predicate RouteDivisible(route: DirectionsRoute) {
    forall i :: 0 <= i < |route.legs| ==> LegDivisible(route.legs[i])
  }

  /**
   * The path entry for coordinate `k` of step `j`: the coordinate, the step's
   * index, the distance to the next coordinate of the step (0 for the last)
   * and the share of the step's duration in proportion to that distance.
   */
  function CoordinateDetail(helper: GeHelpers, step: Step, j: nat, k: nat): (detail: PathDetail)
    requires k < |step.path| && StepDivisible(step)
    ensures detail.loc == step.path[k] && detail.step == j
    ensures detail.duration * step.distanceValue == step.durationValue * detail.distance
    ensures k == |step.path| - 1 ==> detail.distance == 0.0 && detail.duration == 0.0
  {
    var distance := CalculatePathDetailsDistance(helper, step, k);
    PathDetail(step.path[k], j, distance, CalculatePathDetailsDuration(step, distance, step.distanceValue))
  }

  /** The path entries of the first `n` coordinates of step `j`, one per coordinate, in order. */
  function StepDetails(helper: GeHelpers, step: Step, j: nat, n: nat): (details: seq<PathDetail>)
    requires n <= |step.path| && StepDivisible(step)
    ensures |details| == n
  {
    if n == 0 then [] else StepDetails(helper, step, j, n - 1) + [CoordinateDetail(helper, step, j, n - 1)]
  }

  /** The path entries of the first `n` steps of a leg. */
  function LegDetails(helper: GeHelpers, leg: Leg, n: nat): seq<PathDetail>
    requires n <= |leg.steps|
    requires LegDivisible(leg)
  {
    if n == 0 then []
    else LegDetails(helper, leg, n - 1) + StepDetails(helper, leg.steps[n - 1], n - 1, |leg.steps[n - 1].path|)
  }

  /** The path entries of the first `n` legs of a route. */
  function RouteDetails(helper: GeHelpers, route: DirectionsRoute, n: nat): seq<PathDetail>
    requires n <= |route.legs| && RouteDivisible(route)
  {
    if n == 0 then []
    else RouteDetails(helper, route, n - 1) + LegDetails(helper, route.legs[n - 1], |route.legs[n - 1].steps|)
  }

  /** The sum of the durations of the first `n` legs. */
  function LegsDuration(route: DirectionsRoute, n: nat): real
    requires n <= |route.legs|
  {
    if n == 0 then 0.0 else LegsDuration(route, n - 1) + route.legs[n - 1].durationValue
  }

  /** The number of coordinates in the first `n` steps of a leg, and in the first `n` legs of a route. */
  function LegCoordinates(leg: Leg, n: nat): nat
    requires n <= |leg.steps|
  {
    if n == 0 then 0 else LegCoordinates(leg, n - 1) + |leg.steps[n - 1].path|
  }

  function RouteCoordinates(route: DirectionsRoute, n: nat): nat
    requires n <= |route.legs|
  {
    if n == 0 then 0 else RouteCoordinates(route, n - 1) + LegCoordinates(route.legs[n - 1], |route.legs[n - 1].steps|)
  }

  /** The KML coordinate lines for a sequence of path entries, one line each, in order. */
  function KmlCoordinates(numberText: real -> string, details: seq<PathDetail>): string {
    if details == [] then ""
    else
      var last := details[|details| - 1];
      KmlCoordinates(numberText, details[..|details| - 1]) + AppendToKmlLineString(numberText, last.loc.lng, last.loc.lat)
  }

  /** The KML lines for the first `n` coordinates of a step, the first `n` steps of a leg and the first `n` legs of a route. */
  function StepKml(numberText: real -> string, step: Step, n: nat): string
    requires n <= |step.path|
  {
    if n == 0 then ""
    else StepKml(numberText, step, n - 1) + AppendToKmlLineString(numberText, step.path[n - 1].lng, step.path[n - 1].lat)
  }

  function LegKml(numberText: real -> string, leg: Leg, n: nat): string
    requires n <= |leg.steps|
  {
    if n == 0 then "" else LegKml(numberText, leg, n - 1) + StepKml(numberText, leg.steps[n - 1], |leg.steps[n - 1].path|)
  }

  function RouteKml(numberText: real -> string, route: DirectionsRoute, n: nat): string
    requires n <= |route.legs|
  {
    if n == 0 then "" else RouteKml(numberText, route, n - 1) + LegKml(numberText, route.legs[n - 1], |route.legs[n - 1].steps|)
  }

  lemma {:induction false} LegDetailsLength(helper: GeHelpers, leg: Leg, n: nat)
    requires n <= |leg.steps|
    requires LegDivisible(leg)
    ensures |LegDetails(helper, leg, n)| == LegCoordinates(leg, n)
  {
    if n > 0 {
      LegDetailsLength(helper, leg, n - 1);
    }
  }

  /** Building the path adds exactly one entry per coordinate of every step of every leg. */
  lemma {:induction false} RouteDetailsLength(helper: GeHelpers, route: DirectionsRoute, n: nat)
    requires n <= |route.legs| && RouteDivisible(route)
    ensures |RouteDetails(helper, route, n)| == RouteCoordinates(route, n)
  {
    if n > 0 {
      RouteDetailsLength(helper, route, n - 1);
      LegDetailsLength(helper, route.legs[n - 1], |route.legs[n - 1].steps|);
    }
  }

  /** The KML text of two runs of entries is the text of the first followed by that of the second. */
  lemma {:induction false} KmlCoordinatesAppend(numberText: real -> string, a: seq<PathDetail>, b: seq<PathDetail>)
    ensures KmlCoordinates(numberText, a + b) == KmlCoordinates(numberText, a) + KmlCoordinates(numberText, b)
    decreases |b|
  {
    if b != [] {
      var ab := a + b;
      assert ab[..|ab| - 1] == a + b[..|b| - 1];
      assert ab[|ab| - 1] == b[|b| - 1];
      KmlCoordinatesAppend(numberText, a, b[..|b| - 1]);
    } else {
      assert a + b == a;
    }
  }

  lemma {:induction false} StepKmlMatchesDetails(helper: GeHelpers, numberText: real -> string, step: Step, j: nat, n: nat)
    requires n <= |step.path| && StepDivisible(step)
    ensures StepKml(numberText, step, n) == KmlCoordinates(numberText, StepDetails(helper, step, j, n))
  {
    if n > 0 {
      var details := StepDetails(helper, step, j, n);
      StepKmlMatchesDetails(helper, numberText, step, j, n - 1);
      assert details[..n - 1] == StepDetails(helper, step, j, n - 1);
    }
  }

  lemma {:induction false} LegKmlMatchesDetails(helper: GeHelpers, numberText: real -> string, leg: Leg, n: nat)
    requires n <= |leg.steps|
    requires LegDivisible(leg)
    ensures LegKml(numberText, leg, n) == KmlCoordinates(numberText, LegDetails(helper, leg, n))
  {
    if n > 0 {
      var step := leg.steps[n - 1];
      var details := StepDetails(helper, step, n - 1, |step.path|);
      LegKmlMatchesDetails(helper, numberText, leg, n - 1);
      StepKmlMatchesDetails(helper, numberText, step, n - 1, |step.path|);
      KmlCoordinatesAppend(numberText, LegDetails(helper, leg, n - 1), details);
    }
  }

  /**
   * The KML line string has one coordinate line per recorded path entry, in
   * the same order: the text built from the route's coordinates is the text of
   * the path details built from them.
   */
  lemma {:induction false} RouteKmlMatchesDetails(helper: GeHelpers, numberText: real -> string, route: DirectionsRoute, n: nat)
    requires n <= |route.legs| && RouteDivisible(route)
    ensures RouteKml(numberText, route, n) == KmlCoordinates(numberText, RouteDetails(helper, route, n))
  {
    if n > 0 {
      var leg := route.legs[n - 1];
      RouteKmlMatchesDetails(helper, numberText, route, n - 1);
      LegKmlMatchesDetails(helper, numberText, leg, |leg.steps|);
      KmlCoordinatesAppend(numberText, RouteDetails(helper, route, n - 1), LegDetails(helper, leg, |leg.steps|));
    }
  }

  /** The sum of the distances of the first `n` path entries. */
  function DistanceBefore(path: seq<PathDetail>, n: nat): real
    requires n <= |path|
  {
    if n == 0 then 0.0 else DistanceBefore(path, n - 1) + path[n - 1].distance
  }

  /** Every entry's duration is its distance's share of the step's duration. */
  ghost predicate SharedInProportion(path: seq<PathDetail>, stepDistance: real, stepDuration: real) {
    forall k :: 0 <= k < |path| ==> path[k].duration * stepDistance == stepDuration * path[k].distance
  }

  /** Entries shared in proportion sum in proportion. */
  lemma {:induction false} ProportionalSum(path: seq<PathDetail>, stepDistance: real, stepDuration: real, n: nat)
    requires n <= |path| && SharedInProportion(path, stepDistance, stepDuration)
    ensures ElapsedBefore(path, n) * stepDistance == stepDuration * DistanceBefore(path, n)
  {
    if n > 0 {
      ProportionalSum(path, stepDistance, stepDuration, n - 1);
      ShareStep(ElapsedBefore(path, n - 1), path[n - 1].duration, stepDistance, stepDuration,
                DistanceBefore(path, n - 1), path[n - 1].distance);
    }
  }

  lemma {:induction false} StepDetailsInProportion(helper: GeHelpers, step: Step, j: nat, n: nat)
    requires n <= |step.path| && StepDivisible(step)
    ensures SharedInProportion(StepDetails(helper, step, j, n), step.distanceValue, step.durationValue)
  {
    if n > 0 {
      StepDetailsInProportion(helper, step, j, n - 1);
      var before := StepDetails(helper, step, j, n - 1);
      assert forall k :: 0 <= k < n - 1 ==> StepDetails(helper, step, j, n)[k] == before[k];
    }
  }

  /**
   * A step's duration is shared out in proportion to distance: the durations
   * recorded for its coordinates sum, scaled by the step's distance, to the
   * step's duration scaled by the sum of the distances recorded.
   */
  lemma StepDurationsProportional(helper: GeHelpers, step: Step, j: nat)
    requires StepDivisible(step)
    ensures var details := StepDetails(helper, step, j, |step.path|);
      ElapsedBefore(details, |details|) * step.distanceValue == step.durationValue * DistanceBefore(details, |details|)
  {
    StepDetailsInProportion(helper, step, j, |step.path|);
    ProportionalSum(StepDetails(helper, step, j, |step.path|), step.distanceValue, step.durationValue, |step.path|);
  }

  /** Adding a share in proportion keeps the proportion. */
  lemma ShareStep(elapsed: real, duration: real, stepDistance: real, stepDuration: real, distanceSum: real, distance: real)
    requires elapsed * stepDistance == stepDuration * distanceSum
    requires duration * stepDistance == stepDuration * distance
    ensures (elapsed + duration) * stepDistance == stepDuration * (distanceSum + distance)
  {
    calc {
      (elapsed + duration) * stepDistance;
      elapsed * stepDistance + duration * stepDistance;
      stepDuration * distanceSum + stepDuration * distance;
      stepDuration * (distanceSum + distance);
    }
  }

  lemma AppendAssociates<T>(a: seq<T>, b: seq<T>, c: seq<T>)
    ensures a + b + c == a + (b + c)
  {
  }

  /** One more step of a leg extends the leg's entries by that step's. */
  lemma LegProgress(helper: GeHelpers, leg: Leg, j: nat, base: seq<PathDetail>)
    requires j < |leg.steps| && LegDivisible(leg)
    ensures base + LegDetails(helper, leg, j) + StepDetails(helper, leg.steps[j], j, |leg.steps[j].path|) == base + LegDetails(helper, leg, j + 1)
  {
  }

  /** One more leg of a route extends the route's entries by that leg's. */
  lemma RouteProgress(helper: GeHelpers, route: DirectionsRoute, i: nat, base: seq<PathDetail>)
    requires i < |route.legs| && RouteDivisible(route)
    ensures base + RouteDetails(helper, route, i) + LegDetails(helper, route.legs[i], |route.legs[i].steps|)
         == base + RouteDetails(helper, route, i + 1)
  {
  }

  /** Record one coordinate's entry at the end of the simulator's path details. */
  method AddToPathDetails(coord: LatLng, currentStepIndex: nat, nextCoordDistance: real, timeToNextCoord: real, simulator: ModelSimulator)
    requires simulator.Valid()
    modifies simulator`pathDetails
    ensures simulator.Valid()
    ensures simulator.pathDetails == old(simulator.pathDetails) + [PathDetail(coord, currentStepIndex, nextCoordDistance, timeToNextCoord)]
  {
    ElapsedBeforeAppend(simulator.pathDetails, [PathDetail(coord, currentStepIndex, nextCoordDistance, timeToNextCoord)], simulator.geStepIndex);
    simulator.pathDetails := simulator.pathDetails + [PathDetail(coord, currentStepIndex, nextCoordDistance, timeToNextCoord)];
  }

  /** Compute and record the distance and duration from coordinate `currentCoordIndex` of a step to the next. */
  method DetermineAdditionalPathDetails(currentStep: Step, currentStepIndex: nat, currentCoordIndex: nat, simulator: ModelSimulator)
    requires currentCoordIndex < |currentStep.path| && StepDivisible(currentStep)
    requires simulator.Valid()
    modifies simulator`pathDetails
    ensures simulator.Valid()
    ensures simulator.pathDetails
         == old(simulator.pathDetails) + [CoordinateDetail(simulator.geHelper, currentStep, currentStepIndex, currentCoordIndex)]
  {
    var stepDistance := currentStep.distanceValue;
    var coord := currentStep.path[currentCoordIndex];
    var nextCoordDistance := CalculatePathDetailsDistance(simulator.geHelper, currentStep, currentCoordIndex);
    var timeToNextCoord := CalculatePathDetailsDuration(currentStep, nextCoordDistance, stepDistance);
    AddToPathDetails(coord, currentStepIndex, nextCoordDistance, timeToNextCoord, simulator);
  }

  /** The innermost loop of `drawRouteLine`: one path entry per coordinate of step `j`, and the step's KML lines. */
  method DrawStepLine(step: Step, j: nat, simulator: ModelSimulator, numberText: real -> string)
    returns (stepKml: string)
    requires StepDivisible(step)
    requires simulator.Valid()
    modifies simulator`pathDetails
    ensures simulator.Valid()
    ensures simulator.pathDetails == old(simulator.pathDetails) + StepDetails(simulator.geHelper, step, j, |step.path|)
    ensures stepKml == StepKml(numberText, step, |step.path|)
  {
    var helper := simulator.geHelper;
    stepKml := "";
    var k := 0;
    while k < |step.path|
      invariant 0 <= k <= |step.path|
      invariant simulator.Valid()
      invariant simulator.pathDetails == old(simulator.pathDetails) + StepDetails(helper, step, j, k)
      invariant stepKml == StepKml(numberText, step, k)
    {
      var currentLongitude := step.path[k].lng;
      var currentLatitude := step.path[k].lat;
      stepKml := stepKml + AppendToKmlLineString(numberText, currentLongitude, currentLatitude);
      DetermineAdditionalPathDetails(step, j, k, simulator);
      AppendAssociates(old(simulator.pathDetails), StepDetails(helper, step, j, k), [CoordinateDetail(helper, step, j, k)]);
      k := k + 1;
    }
  }

  /** One pass of the middle loop of `drawRouteLine`: step `j` of the leg. */
  method DrawLegStep(leg: Leg, j: nat, simulator: ModelSimulator, numberText: real -> string, ghost base: seq<PathDetail>, legKmlIn: string)
    returns (legKml: string)
    requires j < |leg.steps| && LegDivisible(leg)
    requires simulator.Valid()
    requires simulator.pathDetails == base + LegDetails(simulator.geHelper, leg, j)
    requires legKmlIn == LegKml(numberText, leg, j)
    modifies simulator`pathDetails
    ensures simulator.Valid()
    ensures simulator.pathDetails == base + LegDetails(simulator.geHelper, leg, j + 1)
    ensures legKml == LegKml(numberText, leg, j + 1)
  {
    var stepKml := DrawStepLine(leg.steps[j], j, simulator, numberText);
    legKml := legKmlIn + stepKml;
    LegProgress(simulator.geHelper, leg, j, base);
  }

  /** The middle loop of `drawRouteLine`: every step of one leg, in order, and the leg's KML lines. */
  method DrawLegLine(leg: Leg, simulator: ModelSimulator, numberText: real -> string)
    returns (legKml: string)
    requires LegDivisible(leg)
    requires simulator.Valid()
    modifies simulator`pathDetails
    ensures simulator.Valid()
    ensures simulator.pathDetails == old(simulator.pathDetails) + LegDetails(simulator.geHelper, leg, |leg.steps|)
    ensures legKml == LegKml(numberText, leg, |leg.steps|)
  {
    var helper := simulator.geHelper;
    ghost var base := simulator.pathDetails;
    legKml := "";
    var j := 0;
    while j < |leg.steps|
      invariant 0 <= j <= |leg.steps|
      invariant simulator.Valid()
      invariant simulator.pathDetails == base + LegDetails(helper, leg, j)
      invariant legKml == LegKml(numberText, leg, j)
    {
      legKml := DrawLegStep(leg, j, simulator, numberText, base, legKml);
      j := j + 1;
    }
  }

  /** One pass of the outer loop of `drawRouteLine`: leg `i` of the route and its duration. */
  method DrawRouteLeg(route: DirectionsRoute, i: nat, simulator: ModelSimulator, numberText: real -> string,
                      ghost base: seq<PathDetail>, ghost baseTime: real, kmlIn: string)
    returns (kml: string)
    requires i < |route.legs| && RouteDivisible(route)
    requires simulator.Valid()
    requires route.legs[i].durationValue >= 0.0
    requires simulator.pathDetails == base + RouteDetails(simulator.geHelper, route, i)
    requires simulator.requiredTravelTime == baseTime + LegsDuration(route, i)
    requires kmlIn == KmlHeader + RouteKml(numberText, route, i)
    modifies simulator`pathDetails, simulator`requiredTravelTime
    ensures simulator.Valid()
    ensures simulator.pathDetails == base + RouteDetails(simulator.geHelper, route, i + 1)
    ensures simulator.requiredTravelTime == baseTime + LegsDuration(route, i + 1)
    ensures kml == KmlHeader + RouteKml(numberText, route, i + 1)
  {
    var leg := route.legs[i];
    simulator.requiredTravelTime := simulator.requiredTravelTime + leg.durationValue;
    var legKml := DrawLegLine(leg, simulator, numberText);
    kml := kmlIn + legKml;
    RouteProgress(simulator.geHelper, route, i, base);
    AppendAssociates(KmlHeader, RouteKml(numberText, route, i), legKml);
  }

  /**
   * Walk every coordinate of every step of every leg of the first route:
   * record a path entry for each and add its KML line, and add each leg's
   * duration to the required travel time. Returns the KML line string handed
   * to the globe: one coordinate line per recorded entry, in the same order.
   */
  method DrawRouteLine(directionsResult: DirectionsResult, simulator: ModelSimulator, numberText: real -> string)
    returns (kmlLineString: string)
    requires |directionsResult.routes| > 0
    requires RouteDivisible(directionsResult.routes[0])
    requires forall i :: 0 <= i < |directionsResult.routes[0].legs| ==> directionsResult.routes[0].legs[i].durationValue >= 0.0
    requires simulator.Valid()
    modifies simulator`pathDetails, simulator`requiredTravelTime
    ensures simulator.Valid()
    ensures simulator.pathDetails
         == old(simulator.pathDetails)
          + RouteDetails(simulator.geHelper, directionsResult.routes[0], |directionsResult.routes[0].legs|)
    ensures simulator.requiredTravelTime
         == old(simulator.requiredTravelTime) + LegsDuration(directionsResult.routes[0], |directionsResult.routes[0].legs|)
    ensures kmlLineString
         == KmlHeader
          + RouteKml(numberText, directionsResult.routes[0], |directionsResult.routes[0].legs|)
          + KmlFooter
  {
    var directionsRoute := directionsResult.routes[0];
    var helper := simulator.geHelper;
    ghost var base := simulator.pathDetails;
    ghost var baseTime := simulator.requiredTravelTime;
    kmlLineString := KmlHeader;
    var i := 0;
    while i < |directionsRoute.legs|
      invariant 0 <= i <= |directionsRoute.legs|
      invariant simulator.Valid()
      invariant simulator.pathDetails == base + RouteDetails(helper, directionsRoute, i)
      invariant simulator.requiredTravelTime == baseTime + LegsDuration(directionsRoute, i)
      invariant kmlLineString == KmlHeader + RouteKml(numberText, directionsRoute, i)
    {
      kmlLineString := DrawRouteLeg(directionsRoute, i, simulator, numberText, base, baseTime, kmlLineString);
      i := i + 1;
    }
    kmlLineString := kmlLineString + KmlFooter;
  }

  /**
   * The directions service's reply: on success the error text is hidden and
   * the route is drawn; otherwise the error is shown and nothing else changes.
   * The service call itself, the camera placement and the model-creation
   * callback are outside the model.
   */
  method GetDirections(statusOk: bool, result: DirectionsResult, simulator: ModelSimulator, numberText: real -> string)
    returns (errorShown: bool, kml: Option<string>)
    requires simulator.Valid()
    requires statusOk ==> |result.routes| > 0 && RouteDivisible(result.routes[0])
    requires statusOk ==> forall i :: 0 <= i < |result.routes[0].legs| ==> result.routes[0].legs[i].durationValue >= 0.0
    modifies simulator`pathDetails, simulator`requiredTravelTime
    ensures simulator.Valid()
    ensures errorShown <==> !statusOk
    ensures kml.Some? <==> statusOk
    ensures statusOk ==>
      simulator.pathDetails == old(simulator.pathDetails) + RouteDetails(simulator.geHelper, result.routes[0], |result.routes[0].legs|)
    ensures statusOk ==>
      simulator.requiredTravelTime == old(simulator.requiredTravelTime) + LegsDuration(result.routes[0], |result.routes[0].legs|)
    ensures statusOk ==>
      kml == Some(KmlHeader + RouteKml(numberText, result.routes[0], |result.routes[0].legs|) + KmlFooter)
    ensures !statusOk ==> simulator.pathDetails == old(simulator.pathDetails)
    ensures !statusOk ==> simulator.requiredTravelTime == old(simulator.requiredTravelTime)
  {
    var error := false;
    if statusOk {
      var line := DrawRouteLine(result, simulator, numberText);
      kml := Some(line);
    } else {
      error := true;
      kml := None;
    }
    errorShown := error;
  }

  /**
   * The directions request built by the route-creation driver from the form:
   * the entered From/To values and the travel mode of the method drop-down.
   */
  function RouteCreationRequest(wasCustomRouteEntered: bool, customFrom: string, customTo: string, selectedRoute: string, travelMethod: string)
    : (request: DirectionsRequest)
    ensures wasCustomRouteEntered ==> request.origin == customFrom && request.destination == Some(customTo)
    ensures !wasCustomRouteEntered ==> FieldBefore(selectedRoute, ';', request.origin)
    ensures !wasCustomRouteEntered ==> (request.destination.Some? <==> ';' in selectedRoute)
    ensures !wasCustomRouteEntered && request.destination.Some? ==>
      FieldBefore(selectedRoute[|request.origin| + 1..], ';', request.destination.value)
    ensures request.travelMode.Some? <==> travelMethod == "driving" || travelMethod == "transit"
  {
    CreateDirectionsRequest(GetEnteredRouteValues(wasCustomRouteEntered, customFrom, customTo, selectedRoute), DetermineTransitType(travelMethod))
  }

  /**
   * A selected route whose value is `start;end` asks for directions from
   * `start` to `end`, whatever the custom fields hold.
   */
  lemma SelectedRouteRequest(start: string, end: string, customFrom: string, customTo: string, travelMethod: string)
    requires ';' !in start && ';' !in end
    ensures RouteCreationRequest(false, customFrom, customTo, start + ";" + end, travelMethod)
         == DirectionsRequest(start, Some(end), DetermineTransitType(travelMethod))
  {
    TokenizeRoundTrip(start, end);
  }
}
